=== FILE: README.md ===
# Switchboard AI gateway core, modelled in Dafny

Switchboard AI is a gateway in front of a hosted chat-completion service. It
handles each prompt on the `/v1/chat` endpoint in four steps:

1. A native C routine (`analyze_and_redact`) overwrites sensitive bytes in place with `*`. It covers runs of 13 or more digits (card numbers) and the characters after an `sk-` prefix (API keys).
2. The gateway picks a model tier from keyword triggers and the prompt's length.
3. It sends the cleaned text to the chosen model.
4. It writes one log record per request.

This project models the following parts:

- `utf8.dfy` (`Utf8`): UTF-8 as in Unicode Table 3-7. It covers
  `str.encode('utf-8')` and `bytes.decode('utf-8')`, proves the encode/decode
  round trip, and shows that overwriting whole characters, ASCII or not, with
  the ASCII byte `*` keeps UTF-8 well-formed.
- `scanner.dfy` (`Scanner`): `analyze_and_redact` over a byte buffer that ends
  at its first NUL. It has two parts:
  - `Redact` is a declarative description of the buffer and the flag after the call;
  - `AnalyzeAndRedact` is the C loop, with its two inner loops, proved equal to `Redact`.
- `scanner_facts.dfy` (`ScannerFacts`): what the scan does and does not do.
  It covers which bytes can change, full masking of key tails and of
  contiguous digit runs, clean input passing through, UTF-8 preservation, and
  what a second scan of the output reports.
- `scanner_examples.dfy` (`ScannerExamples`): concrete inputs that pin down
  the edge cases of the C code.
- `bridge.dfy` (`Bridge`): `PIIEngine.scan_and_redact`. It includes the
  empty-input fast path, the NUL-terminated buffer built by
  `ctypes.create_string_buffer`, and the `buf.value` read-back up to the first NUL.
- `routing.dfy`, `routing_facts.dfy` (`Routing`, `RoutingFacts`):
  `get_intelligent_route`. It models Python's `str.split()` and `in`, and the
  eight triggers.
- `pipeline.dfy`, `pipeline_facts.dfy` (`Pipeline`, `PipelineFacts`): the
  status, log and response logic of `chat_with_ai`. The chat-completion call
  becomes a parameter `dispatch: (text, model) -> Ok(reply) | Fail(message)`.
  The request log is a sequence that one call extends by one record. The
  order of the steps is kept as a trace of events.

What the scanner does not do, and other behaviour of the code worth knowing:

- E-mail addresses, phone numbers and national IDs are not recognised as
  such. Only digit runs and `sk-` key tails are masked. A phone number or ID
  is masked by the digit rule only when it is part of a run of 13 or more
  digits, spaces and dashes allowed (`ScannerFacts.DigitRunMasked` for a
  contiguous run), and then possibly only in part
  (`ScannerExamples.SeparatedCardText`). It is also masked when it lies in a
  key tail: "sk-555-1234" keeps only its prefix
  (`ScannerFacts.KeyTailMasked`). A prompt holding an e-mail
  address reaches the model unchanged and is logged `PROCESSED` with no
  risk (`PipelineFacts.EmailPromptPassesThrough`).
- A second scan of the output is not risk-free. The first `sk-` prefix
  stays in the output (`ScannerFacts.FirstKeyKept`), so a rescan flags it
  again (`ScannerFacts.RescanStillFlagsKey`). A prefix inside an earlier
  key's tail is masked with that tail: "sk-sk-x" becomes "sk-****"
  (`ScannerFacts.KeyKeptOutsideTail`, `ScannerExamples.NestedKeyMasked`).
- A card number written with separators is only partly masked. The masking
  window counts positions, not digits (`ScannerExamples.SeparatedCardText`).
- Matching is not greedy-leftmost: there is no search for the longest or
  leftmost match among categories, only the two rules applied in one pass.
- The flag does not mean a byte changed: a prefix whose next byte is a space
  still raises it, with nothing masked (`ScannerExamples.KeyFlagWithoutMasking`).
- The status `BLOCKED` is never produced.

## Model

| member | source | states |
|---|---|---|
| Utf8.EncodeChar | app/scanner_bridge.py:40 | each character encodes to 1 to 4 bytes; the lead byte announces that width and the bytes decode back to the character's code point |
| Utf8.Decode | app/scanner_bridge.py:49 | decoding succeeds exactly on well-formed UTF-8, and the decoded string encodes back to the very bytes decoded |
| Utf8.DecodeFirst | app/scanner_bridge.py:49 | the first decoded character re-encodes to exactly the leading bytes it was read from |
| Utf8.EncodeCharInjective | app/scanner_bridge.py:40 | distinct characters have distinct encodings |
| Utf8.DecodeEncode | app/scanner_bridge.py:40-49 | decoding the encoding of any string gives that string back |
| Utf8.EncodeInjective | app/scanner_bridge.py:40 | distinct strings have distinct encodings, so the cleaned text is fixed by its bytes |
| Utf8.EncodeValid | app/scanner_bridge.py:40 | the encoding of any string is well-formed UTF-8 |
| Utf8.EncodeNoZero | app/scanner_bridge.py:40 | an encoding holds a zero byte only where the string holds U+0000 |
| Utf8.EncodeAscii | app/scanner_bridge.py:40 | ASCII text encodes to one byte per character, equal to its code |
| Utf8.WholeCharRewriteValid | app/scanner_bridge.py:49 | rewriting whole characters of well-formed UTF-8 into ASCII leaves it well-formed |
| Scanner.StrLen | core_engine/scanner.c:14 | the length is the index of the first NUL byte, or the buffer size when there is none |
| Scanner.Redact | core_engine/scanner.c:11-44 | the buffer keeps its length, each byte is either kept or becomes '*', bytes from the first NUL on are untouched, and the result is 0 or 1 |
| Scanner.AnalyzeAndRedact | core_engine/scanner.c:11-44 | the C loop (strlen, digit counter with backward window, key-tail masking) leaves exactly the buffer and returns exactly the flag that Redact describes |
| Scanner.FindStrLen | core_engine/scanner.c:14 | the loop stops at the first NUL byte, or at the end of the buffer |
| Scanner.ScanStep | core_engine/scanner.c:18-42 | one pass of the loop body keeps the buffer, the counter and the flag in step with the description, one cursor position further on |
| Scanner.MaskDigitsBackward | core_engine/scanner.c:24-26 | in the window of `count` positions ending at i, digits become '*' and all other bytes stay |
| Scanner.MaskUntilKeyEnd | core_engine/scanner.c:35-39 | masks from i+3 up to the first space, newline or end of string, and stops there |
| Scanner.DigitRule | core_engine/scanner.c:20-31 | one step of the card rule: the counter grows on a digit, holds on space or dash, resets otherwise, and masks the window once it reaches 13 |
| Scanner.KeyRule | core_engine/scanner.c:34-41 | one step of the key rule: a prefix "sk-" with at least one byte after it masks its tail and raises the flag |
| ScannerFacts.ChangedBytes | core_engine/scanner.c:18-41 | a byte changes only inside the string, only to '*', and only if it is a digit or lies after a "sk-" prefix with no space or newline in between; spaces and newlines never change |
| ScannerFacts.KeyTailMasked | core_engine/scanner.c:34-41 | every byte after a "sk-" prefix up to the next space or newline becomes '*', and the call returns 1 |
| ScannerFacts.DigitRunMasked | core_engine/scanner.c:20-28 | a run of 13 or more contiguous digits becomes '*' entirely, and the call returns 1 |
| ScannerFacts.CountAtMostDigits | core_engine/scanner.c:16-31 | the running counter never exceeds the number of digits seen so far |
| ScannerFacts.CleanInputUnchanged | core_engine/scanner.c:18-43 | with no "sk-" prefix and fewer than 13 digits in the string, the buffer is untouched and the call returns 0 |
| ScannerFacts.MaskingKeepsUtf8 | core_engine/scanner.c:20-39 | when the string is well-formed UTF-8, so is the string after masking |
| ScannerFacts.RedactKeepsStrLen | core_engine/scanner.c:14-41 | masking never writes a NUL, so the string ends where it did |
| ScannerFacts.KeyKeptOutsideTail | core_engine/scanner.c:34-39 | a "sk-" prefix stays in the output exactly when it does not lie in the tail of an earlier prefix; one inside such a tail is masked with it |
| ScannerFacts.FirstKeyKept | core_engine/scanner.c:34-37 | the first "sk-" prefix itself is not masked; masking starts three bytes after it |
| ScannerFacts.RescanStillFlagsKey | core_engine/scanner.c:34-41 | scanning the output again returns 1 whenever the input had a "sk-" prefix with a byte after it |
| ScannerExamples.KeyFlagWithoutMasking | core_engine/scanner.c:34-41 | "sk- x" is returned unchanged, yet the call returns 1 |
| ScannerExamples.NestedKeyMasked | core_engine/scanner.c:34-39 | "sk-sk-x" becomes "sk-****": the second prefix is masked as part of the first one's tail |
| ScannerExamples.SeparatedCardText | core_engine/scanner.c:20-31 | "1234-5678-9012-3456" becomes "123*-****-****-****": the window spans 16 positions, so three digits survive |
| ScannerExamples.SeparatedCardRisk | core_engine/scanner.c:20-28 | the separated card number raises the flag |
| Bridge.ScannedNative | app/scanner_bridge.py:40-43 | the C routine sees the UTF-8 bytes of the text up to its first U+0000 |
| Bridge.ValueDecodes | app/scanner_bridge.py:49 | the bytes read back after the scan are well-formed UTF-8, so the decode cannot fail |
| Bridge.ScanAndRedact | app/scanner_bridge.py:29-49 | empty text gives ("", False, 0.0); otherwise risk is the C result being non-zero, the cleaned text encodes to the buffer up to its first NUL, and the measured latency is returned |
| Bridge.CleanedKeepsByteLength | app/scanner_bridge.py:40-49 | for text without U+0000, the cleaned text has as many UTF-8 bytes as the input |
| Bridge.CleanTextPassesThrough | app/scanner_bridge.py:29-49 | text without a key prefix and with fewer than 13 digits comes back unchanged with risk False |
| Bridge.RedactDependsOnScanned | core_engine/scanner.c:14-18 | two buffers that agree up to their first NUL get the same flag and the same string back |
| Bridge.NulTruncates | app/scanner_bridge.py:40-49 | everything from the first U+0000 on is dropped: the result equals that of the text before it |
| Routing.Lower | app/main.py:44 | lower-casing keeps the length and maps each upper-case ASCII letter to its lower-case letter |
| Routing.Split | app/main.py:53 | every token of str.split() is non-empty and holds no whitespace |
| Routing.GetIntelligentRoute | app/main.py:42-57 | the route is one of the two fixed (model, tier) pairs, premium exactly when a trigger occurs in the lower-cased prompt or it has more than 30 tokens |
| RoutingFacts.SplitCountsWordStarts | app/main.py:53 | the token count is the number of non-space characters that follow whitespace or start the text |
| RoutingFacts.WordStartsBySpaces | app/main.py:53 | the token count depends only on which positions hold whitespace |
| RoutingFacts.RouteIgnoresCase | app/main.py:44-57 | prompts that lower-case to the same text get the same route |
| RoutingFacts.ExplainIsPremium | app/main.py:45-56 | "explain quantum computing" goes premium on its trigger |
| RoutingFacts.HiIsStandard | app/main.py:52-57 | "hi" goes to the standard tier |
| RoutingFacts.LongPromptIsPremium | app/main.py:53-56 | 31 words without a trigger go premium on length alone |
| Pipeline.Settle | app/main.py:73-90 | a reply gives REDACTED exactly when the scan found risk, else PROCESSED, with the reply text; a failure gives ERROR with "AI Service Error: " and the message; the status text stored is "REDACTED", "PROCESSED" or "ERROR" accordingly |
| Pipeline.ChatWithAi | app/main.py:66-108 | exactly one record is appended and the old log is kept; it holds the caller's user id, the raw prompt's length, the scan's risk flag on every path, and the response's status; the status is never BLOCKED; the dispatched model is the route's, model_used opens with the model, the tier and "Scan: " and ends "ms", processed_by opens with "model (Latency: " and ends "ms)" |
| PipelineFacts.OnlyScanSeesPrompt | app/main.py:68-107 | the raw prompt matters only through its length and the scan: two requests from one user whose prompts have equal length and equal scan results get the same log, response and post-scan steps |
| PipelineFacts.MaskedPromptSameOutcome | app/main.py:68-107 | two non-empty prompts of equal length whose redacted bytes and flag agree get the same log and response |
| PipelineFacts.DispatchFailureIsError | app/main.py:88-105 | a failed dispatch gives ERROR in the response and the log whatever the scan found, with the failure text in the reply, and both still report the scan's risk flag |
| PipelineFacts.DispatchSuccessStatus | app/main.py:86-106 | a successful dispatch gives REDACTED exactly when risk was found, else PROCESSED, and passes the reply through |
| PipelineFacts.ModelUsedNamesRoute | app/main.py:71-98 | the record's model_used opens with the premium model and tier exactly when a trigger occurs in the cleaned text or it has more than 30 tokens |
| PipelineFacts.ReportedLatency | app/main.py:98-107 | model_used and processed_by carry the same latency text just before their closing "ms" (the measured time, or 0.0 for an empty prompt), and their lengths leave room for nothing else, so with ChatWithAi's prefixes and suffixes both strings are exactly the f-strings of the code |
| PipelineFacts.DispatchedDigitRunMasked | app/main.py:68-85 | a run of 13 or more digits in the prompt reaches the model as '*' only, and risk is reported |
| PipelineFacts.DispatchedKeyMasked | app/main.py:68-85 | the characters after "sk-" up to the next space or newline reach the model as '*' only, and risk is reported |
| PipelineFacts.PlainTextPassesThrough | app/scanner_bridge.py:29-49 | non-empty ASCII text with no U+0000, no digit and no 'k' is returned as is, with no risk |
| PipelineFacts.EmailPromptRoute | app/main.py:42-56 | "My email is jane@example.com, summarize this" routes premium on "summarize" |
| PipelineFacts.EmailPromptPassesThrough | app/main.py:66-108 | that prompt is dispatched unchanged to the premium model; a successful reply gives PROCESSED with no risk, logged with prompt length 44 |

## Left out

- Loading the shared library (`PIIEngine.__init__`, ctypes argument types, `sys.exit` on failure) is foreign-function setup with no logic to model.
- Scanner.AnalyzeAndRedact: the check for a NULL argument is not modelled; a Dafny sequence is never null.
- Scanner.AnalyzeAndRedact: `(int)strlen(text)` overflow for strings of 2^31 bytes or more is not modelled; lengths are unbounded.
- C `char` signedness is irrelevant: every comparison in the routine is against ASCII bytes, and bytes are modelled as 0..255.
- Routing.Lower: only ASCII letters are lower-cased. Python's `str.lower()` also maps non-ASCII letters, which can change a string's length. Triggers are ASCII, so a non-ASCII letter can only matter through a full Unicode case mapping, which is not modelled.
- Python strings holding lone surrogates are not modelled: Dafny characters are Unicode scalar values. In Python `text.encode('utf-8')` would raise on them.
- Timing and float formatting are parameters: `time.perf_counter`, `round(latency_ms, 4)` and the float-to-text conversion inside the f-strings.
- The chat-completion client becomes the `dispatch` parameter. The client's construction, the API-key check at start-up and the fixed system message are not modelled.
- The database session, `db.add`/`db.commit`, the `RequestLog` table and the `/v1/logs` query are replaced by a log sequence. Record ids and timestamps assigned by the database are not modelled.
- FastAPI routing, pydantic validation, the health-check endpoint and the static dashboard mount are framework wiring.
- Concurrency between requests is not modelled; each call is one atomic step on the log.

=== FILE: bridge.dfy ===
/** PIIEngine.scan_and_redact: the Python wrapper around the native scanner.
    It skips empty input, hands the UTF-8 bytes of the text (plus the NUL that
    ctypes.create_string_buffer appends) to analyze_and_redact, and decodes the
    buffer back up to its first NUL. The measured latency is a parameter. */
module Bridge {
  import opened Utf8
  import opened Scanner
  import opened ScannerFacts

  /** (cleaned text, risk flag, scan latency in ms) as the wrapper returns it. */
  datatype BridgeResult = BridgeResult(cleaned: string, risk: bool, latencyMs: real)

  /** Index of the first U+0000 in the text, or its length. */
  function FirstNul(text: string): (k: nat)
    ensures k <= |text|
    ensures forall i :: 0 <= i < k ==> text[i] != 0 as char
    ensures k < |text| ==> text[k] == 0 as char
  {
    if |text| == 0 || text[0] == 0 as char then 0 else 1 + FirstNul(text[1..])
  }

  /** The buffer ctypes.create_string_buffer(text.encode('utf-8')) builds. */
  function NativeBuffer(text: string): seq<Byte>
  {
    Encode(text) + [Nul]
  }

  /** The native scanner sees the encoding of the text up to its first U+0000. */
  lemma ScannedNative(text: string)
    ensures Scanned(NativeBuffer(text)) == Encode(text[..FirstNul(text)])
  {
    var k := FirstNul(text);
    var pre := Encode(text[..k]);
    assert text == text[..k] + text[k..];
    EncodeAppend(text[..k], text[k..]);
    EncodeNoZero(text[..k]);
    var buf := NativeBuffer(text);
    assert buf == pre + Encode(text[k..]) + [Nul];
    if k < |text| {
      assert Encode(text[k..]) == EncodeChar(text[k]) + Encode(text[k + 1..]);
      assert EncodeChar(text[k])[0] as int == 0;
    }
    assert buf[|pre|] == Nul;
    assert forall j :: 0 <= j < |pre| ==> buf[j] == pre[j];
  }

  /** The bytes read back after the scan form well-formed UTF-8. */
  lemma ValueDecodes(text: string)
    ensures Valid(Scanned(Redact(NativeBuffer(text)).text))
  {
    var buf := NativeBuffer(text);
    ScannedNative(text);
    EncodeValid(text[..FirstNul(text)]);
    MaskingKeepsUtf8(buf);
    RedactKeepsStrLen(buf);
  }

  /** PIIEngine.scan_and_redact. */
  function ScanAndRedact(text: string, latencyMs: real): (r: BridgeResult)
    ensures text == "" ==> r == BridgeResult("", false, 0.0)
    ensures text != "" ==> r.risk == (Redact(NativeBuffer(text)).risk != 0)
    ensures text != "" ==> Encode(r.cleaned) == Scanned(Redact(NativeBuffer(text)).text)
    ensures text != "" ==> r.latencyMs == latencyMs
  {
    if |text| == 0 then BridgeResult("", false, 0.0)
    else
      var scan := Redact(NativeBuffer(text));
      ValueDecodes(text);
      BridgeResult(Decode(Scanned(scan.text)).value, scan.risk != 0, latencyMs)
  }

  /** For text without U+0000 the cleaned text has as many UTF-8 bytes as the input. */
  lemma CleanedKeepsByteLength(text: string, latencyMs: real)
    requires FirstNul(text) == |text|
    ensures |Encode(ScanAndRedact(text, latencyMs).cleaned)| == |Encode(text)|
  {
    if text != "" {
      ScannedNative(text);
      assert text[..|text|] == text;
      RedactKeepsStrLen(NativeBuffer(text));
    }
  }

  /** Text without U+0000, without a "sk-" prefix and with fewer than 13 digits
      comes back unchanged, with no risk reported. */
  lemma CleanTextPassesThrough(text: string, latencyMs: real)
    requires text != "" && FirstNul(text) == |text|
    requires var b := Encode(text); !KeyBefore(b, |b|) && DigitsIn(b, |b|) < DigitThreshold
    ensures ScanAndRedact(text, latencyMs) == BridgeResult(text, false, latencyMs)
  {
    var buf := NativeBuffer(text);
    ScannedNative(text);
    assert text[..|text|] == text;
    CleanInputUnchanged(buf);
    DecodeEncode(text);
    assert Scanned(buf) == Encode(text);
  }

  /** The native result for a buffer is fixed by its scanned string. */
  lemma RedactDependsOnScanned(b1: seq<Byte>, b2: seq<Byte>)
    requires Scanned(b1) == Scanned(b2)
    ensures Redact(b1).risk == Redact(b2).risk
    ensures Scanned(Redact(b1).text) == Scanned(Redact(b2).text)
  {
    RedactKeepsStrLen(b1);
    RedactKeepsStrLen(b2);
    var t := Scanned(b1);
    forall p | 0 <= p < |t| ensures Redact(b1).text[p] == Redact(b2).text[p] {
      RedactAt(b1, p);
      RedactAt(b2, p);
    }
  }

  /** Everything from the first U+0000 on is dropped: the result is that of the
      text before it. */
  lemma NulTruncates(text: string, latencyMs: real)
    requires 0 < FirstNul(text) < |text|
    ensures ScanAndRedact(text, latencyMs) == ScanAndRedact(text[..FirstNul(text)], latencyMs)
  {
    var k := FirstNul(text);
    var pre := text[..k];
    ScannedNative(text);
    ScannedNative(pre);
    assert FirstNul(pre) == k;
    assert pre[..k] == pre;
    RedactDependsOnScanned(NativeBuffer(text), NativeBuffer(pre));
  }
}

=== FILE: pipeline.dfy ===
/** The /v1/chat handler chat_with_ai: scan the prompt, route the cleaned text,
    dispatch it to the chosen model, and write one log record. The model call,
    the clock and float formatting are parameters. */
module Pipeline {
  import Bridge
  import Routing

  /** The status column of a log record; StatusName gives the text stored. */
  datatype Status = Processed | Redacted | Blocked | Error

  function StatusName(s: Status): string
  {
    match s
    case Processed => "PROCESSED"
    case Redacted => "REDACTED"
    case Blocked => "BLOCKED"
    case Error => "ERROR"
  }

  datatype Request = Request(userId: string, prompt: string)

  /** What the chat-completion call gives back: the reply, or the text of the
      exception it raised. */
  datatype Dispatch = Ok(reply: string) | Fail(message: string)

  /** One row of the request log. */
  datatype LogRecord = LogRecord(
    userId: string, promptLength: nat, status: Status, riskDetected: bool, modelUsed: string)

  /** The JSON body returned to the caller. */
  datatype Response = Response(
    status: Status, riskDetected: bool, aiResponse: string, processedBy: string)

  /** The steps of one request, in the order they happen, with what each consumed. */
  datatype Event =
    | ScanRequested(input: string)
    | Routed(input: string)
    | Dispatched(input: string, model: string)
    | Logged(record: LogRecord)

  datatype Outcome = Outcome(log: seq<LogRecord>, response: Response, trace: seq<Event>)

  const ServiceErrorPrefix := "AI Service Error: "

  predicate StartsWith(s: string, prefix: string)
  {
    |prefix| <= |s| && s[..|prefix|] == prefix
  }

  predicate EndsWith(s: string, suffix: string)
  {
    |suffix| <= |s| && s[|s| - |suffix|..] == suffix
  }

  /** Status and reply text once the dispatch has returned or raised. */
  function Settle(reply: Dispatch, wasRedacted: bool): (r: (Status, string))
    ensures reply.Ok? ==> r.0 == (if wasRedacted then Redacted else Processed) && r.1 == reply.reply
    ensures reply.Fail? ==> r.0 == Error && r.1 == ServiceErrorPrefix + reply.message
    ensures StatusName(r.0) == if reply.Fail? then "ERROR" else if wasRedacted then "REDACTED" else "PROCESSED"
  {
    match reply
    case Ok(text) => (if wasRedacted then Redacted else Processed, text)
    case Fail(message) => (Error, ServiceErrorPrefix + message)
  }

  /** chat_with_ai. `latencyMs` is what the scan timer measured, `showLatency`
      is Python's str() of a float, `dispatch` is the chat-completion call. */
  function ChatWithAi(
    log: seq<LogRecord>, request: Request, latencyMs: real,
    showLatency: real -> string, dispatch: (string, string) -> Dispatch): (o: Outcome)
    ensures |o.log| == |log| + 1 && o.log[..|log|] == log && |o.trace| == 4
    ensures o.log[|log|].promptLength == |request.prompt|
    ensures o.log[|log|].status == o.response.status
    ensures o.log[|log|].riskDetected == o.response.riskDetected
    ensures o.log[|log|].riskDetected == Bridge.ScanAndRedact(request.prompt, latencyMs).risk
    ensures o.log[|log|].userId == request.userId
    ensures o.response.status != Blocked
    ensures var route := Routing.GetIntelligentRoute(Bridge.ScanAndRedact(request.prompt, latencyMs).cleaned);
      && o.trace[2].Dispatched? && o.trace[2].model == route.model
      && StartsWith(o.log[|log|].modelUsed, route.model + " | " + route.tier + " | Scan: ")
      && EndsWith(o.log[|log|].modelUsed, "ms")
      && StartsWith(o.response.processedBy, route.model + " (Latency: ")
      && EndsWith(o.response.processedBy, "ms)")
  {
    var scan := Bridge.ScanAndRedact(request.prompt, latencyMs);
    var route := Routing.GetIntelligentRoute(scan.cleaned);
    var reply := dispatch(scan.cleaned, route.model);
    var (status, aiReply) := Settle(reply, scan.risk);
    var latency := showLatency(scan.latencyMs);
    var record := LogRecord(request.userId, |request.prompt|, status, scan.risk,
      route.model + " | " + route.tier + " | Scan: " + latency + "ms");
    Outcome(
      log + [record],
      Response(status, scan.risk, aiReply, route.model + " (Latency: " + latency + "ms)"),
      [ScanRequested(request.prompt), Routed(scan.cleaned), Dispatched(scan.cleaned, route.model), Logged(record)])
  }
}

=== FILE: pipeline_facts.dfy ===
/** Properties of chat_with_ai: ordering, the single log record, the status
    decision, and what the model gets to see. */
module PipelineFacts {
  import opened Utf8
  import Scanner
  import ScannerFacts
  import Bridge
  import Routing
  import opened Pipeline

  /** Unpacks the trace of one request: what each step consumed, with the log
      write last. */
  lemma StepsInOrder(
    log: seq<LogRecord>, request: Request, latencyMs: real,
    showLatency: real -> string, dispatch: (string, string) -> Dispatch)
    ensures var o := ChatWithAi(log, request, latencyMs, showLatency, dispatch);
      var cleaned := Bridge.ScanAndRedact(request.prompt, latencyMs).cleaned;
      && |o.trace| == 4
      && o.trace[0] == ScanRequested(request.prompt)
      && (forall k :: 1 <= k < |o.trace| && !o.trace[k].Logged? ==> o.trace[k].input == cleaned)
      && o.trace[1].Routed? && o.trace[2].Dispatched?
      && o.trace[2].model == Routing.GetIntelligentRoute(cleaned).model
      && (forall k :: 0 <= k < |o.trace| && o.trace[k].Logged? ==> k == |o.trace| - 1)
      && o.trace[3] == Logged(o.log[|log|])
  {
  }

  /** Routing and dispatch never see the raw prompt: two requests from the same
      user whose prompts have the same length and scan to the same result get the
      same log, the same response, and the same steps after the scan. */
  lemma OnlyScanSeesPrompt(
    log: seq<LogRecord>, r1: Request, r2: Request, latencyMs: real,
    showLatency: real -> string, dispatch: (string, string) -> Dispatch)
    requires r1.userId == r2.userId && |r1.prompt| == |r2.prompt|
    requires Bridge.ScanAndRedact(r1.prompt, latencyMs) == Bridge.ScanAndRedact(r2.prompt, latencyMs)
    ensures var o1 := ChatWithAi(log, r1, latencyMs, showLatency, dispatch);
      var o2 := ChatWithAi(log, r2, latencyMs, showLatency, dispatch);
      o1.log == o2.log && o1.response == o2.response && o1.trace[1..] == o2.trace[1..]
  {
  }

  /** Two non-empty prompts of equal length whose redacted bytes and risk flag
      agree are indistinguishable downstream of the scan. */
  lemma MaskedPromptSameOutcome(
    log: seq<LogRecord>, userId: string, p1: string, p2: string, latencyMs: real,
    showLatency: real -> string, dispatch: (string, string) -> Dispatch)
    requires p1 != "" && p2 != "" && |p1| == |p2|
    requires Scanner.Scanned(Scanner.Redact(Bridge.NativeBuffer(p1)).text) == Scanner.Scanned(Scanner.Redact(Bridge.NativeBuffer(p2)).text)
    requires Scanner.Redact(Bridge.NativeBuffer(p1)).risk == Scanner.Redact(Bridge.NativeBuffer(p2)).risk
    ensures var o1 := ChatWithAi(log, Request(userId, p1), latencyMs, showLatency, dispatch);
      var o2 := ChatWithAi(log, Request(userId, p2), latencyMs, showLatency, dispatch);
      o1.log == o2.log && o1.response == o2.response
  {
  }

  /** The record's model_used names the tier: it opens with the premium model and
      tier exactly when the request was routed premium. */
  lemma ModelUsedNamesRoute(
    log: seq<LogRecord>, request: Request, latencyMs: real,
    showLatency: real -> string, dispatch: (string, string) -> Dispatch)
    ensures var o := ChatWithAi(log, request, latencyMs, showLatency, dispatch);
      var cleaned := Bridge.ScanAndRedact(request.prompt, latencyMs).cleaned;
      (StartsWith(o.log[|log|].modelUsed, Routing.Premium.model + " | " + Routing.Premium.tier)
       <==> Routing.IsComplex(cleaned) || Routing.IsLong(cleaned))
  {
    var o := ChatWithAi(log, request, latencyMs, showLatency, dispatch);
    var cleaned := Bridge.ScanAndRedact(request.prompt, latencyMs).cleaned;
    var route := Routing.GetIntelligentRoute(cleaned);
    var used := o.log[|log|].modelUsed;
    var p := Routing.Premium.model + " | " + Routing.Premium.tier;
    if route == Routing.Standard {
      var q := route.model + " | " + route.tier + " | Scan: ";
      assert StartsWith(used, q);
      assert used[8] == q[8] == '1';
      assert p[8] == '3';
    } else {
      StartsWithLonger(used, route.model + " | " + route.tier, " | Scan: ");
    }
  }

  /** model_used and processed_by carry the same latency text, just before their
      closing "ms": the bridge's reading, which is 0.0 for an empty prompt. With
      the prefixes and suffixes ChatWithAi states, the lengths fix both strings. */
  lemma ReportedLatency(
    log: seq<LogRecord>, request: Request, latencyMs: real,
    showLatency: real -> string, dispatch: (string, string) -> Dispatch)
    ensures var o := ChatWithAi(log, request, latencyMs, showLatency, dispatch);
      var lat := showLatency(if request.prompt == "" then 0.0 else latencyMs);
      var used := o.log[|log|].modelUsed;
      var shown := o.response.processedBy;
      var route := Routing.GetIntelligentRoute(Bridge.ScanAndRedact(request.prompt, latencyMs).cleaned);
      && |used| == |route.model + " | " + route.tier + " | Scan: "| + |lat| + 2
      && |shown| == |route.model + " (Latency: "| + |lat| + 3
      && used[|used| - |lat| - 2..|used| - 2] == lat
      && shown[|shown| - |lat| - 3..|shown| - 3] == lat
  {
  }

  lemma StartsWithLonger(s: string, p: string, more: string)
    requires StartsWith(s, p + more)
    ensures StartsWith(s, p)
  {
    assert (p + more)[..|p|] == p;
  }

  /** A failed dispatch always yields status ERROR, whatever the scan found, with
      the failure text in the reply, and the same status in the one new log record. */
  lemma DispatchFailureIsError(
    log: seq<LogRecord>, request: Request, latencyMs: real,
    showLatency: real -> string, dispatch: (string, string) -> Dispatch)
    requires var o := ChatWithAi(log, request, latencyMs, showLatency, dispatch);
      dispatch(o.trace[2].input, o.trace[2].model).Fail?
    ensures var o := ChatWithAi(log, request, latencyMs, showLatency, dispatch);
      var message := dispatch(o.trace[2].input, o.trace[2].model).message;
      && o.response.status == Error
      && o.response.aiResponse == "AI Service Error: " + message
      && |o.log| == |log| + 1 && o.log[|log|].status == Error
      && o.response.riskDetected == Bridge.ScanAndRedact(request.prompt, latencyMs).risk
      && o.log[|log|].riskDetected == Bridge.ScanAndRedact(request.prompt, latencyMs).risk
  {
  }

  /** A successful dispatch yields REDACTED exactly when the scan found risk, and
      PROCESSED otherwise; the reply is passed through. */
  lemma DispatchSuccessStatus(
    log: seq<LogRecord>, request: Request, latencyMs: real,
    showLatency: real -> string, dispatch: (string, string) -> Dispatch)
    requires var o := ChatWithAi(log, request, latencyMs, showLatency, dispatch);
      dispatch(o.trace[2].input, o.trace[2].model).Ok?
    ensures var o := ChatWithAi(log, request, latencyMs, showLatency, dispatch);
      var risk := Bridge.ScanAndRedact(request.prompt, latencyMs).risk;
      && o.response.status == (if risk then Redacted else Processed)
      && o.response.riskDetected == risk
      && o.log[|log|].riskDetected == risk
      && o.response.aiResponse == dispatch(o.trace[2].input, o.trace[2].model).reply
  {
  }

  /** A run of 13 or more ASCII digits in the prompt's UTF-8 bytes reaches the
      model as '*' bytes only (for a prompt without U+0000). */
  lemma DispatchedDigitRunMasked(
    log: seq<LogRecord>, request: Request, latencyMs: real,
    showLatency: real -> string, dispatch: (string, string) -> Dispatch, a: int, b: int)
    requires Bridge.FirstNul(request.prompt) == |request.prompt|
    requires var bytes := Encode(request.prompt);
      0 <= a && a + Scanner.DigitThreshold <= b <= |bytes|
      && forall x :: a <= x < b ==> Scanner.IsDigit(bytes[x])
    ensures var o := ChatWithAi(log, request, latencyMs, showLatency, dispatch);
      var sent := Encode(o.trace[2].input);
      |sent| == |Encode(request.prompt)| && forall p :: a <= p < b ==> sent[p] == Scanner.Star
    ensures ChatWithAi(log, request, latencyMs, showLatency, dispatch).response.riskDetected
  {
    var buf := Bridge.NativeBuffer(request.prompt);
    Bridge.ScannedNative(request.prompt);
    assert request.prompt[..|request.prompt|] == request.prompt;
    Bridge.CleanedKeepsByteLength(request.prompt, latencyMs);
    ScannerFacts.DigitRunMasked(buf, a, b);
  }

  /** The bytes after a "sk-" prefix, up to the next space or newline, reach the
      model as '*' bytes only (for a prompt without U+0000). */
  lemma DispatchedKeyMasked(
    log: seq<LogRecord>, request: Request, latencyMs: real,
    showLatency: real -> string, dispatch: (string, string) -> Dispatch, q: int, p: int)
    requires Bridge.FirstNul(request.prompt) == |request.prompt|
    requires var bytes := Encode(request.prompt);
      Scanner.KeyAt(bytes, q) && q + 3 <= p < |bytes| && Scanner.NoKeyEnd(bytes, q + 3, p + 1)
    ensures var o := ChatWithAi(log, request, latencyMs, showLatency, dispatch);
      var sent := Encode(o.trace[2].input);
      |sent| == |Encode(request.prompt)| && sent[p] == Scanner.Star
    ensures ChatWithAi(log, request, latencyMs, showLatency, dispatch).response.riskDetected
  {
    var buf := Bridge.NativeBuffer(request.prompt);
    Bridge.ScannedNative(request.prompt);
    assert request.prompt[..|request.prompt|] == request.prompt;
    Bridge.CleanedKeepsByteLength(request.prompt, latencyMs);
    ScannerFacts.KeyTailMasked(buf, q, p);
  }

  /** A prompt holding an e-mail address, with no digit and no "sk-" prefix. */
  const EmailPrompt := "My email is jane@example.com, summarize this"

  /** No character of the example is U+0000, non-ASCII, 'k' or a digit. */
  predicate Plain(c: char)
  {
    c != 0 as char && c as int < 0x80 && c != 'k' && !('0' <= c <= '9')
  }

  lemma EmailPromptPlain()
    ensures forall i :: 0 <= i < |EmailPrompt| ==> Plain(EmailPrompt[i])
  {
  }

  /** What the scanner sees of plain text: no "sk-" prefix and no digit. */
  lemma PlainTextBytes(s: string)
    requires forall i :: 0 <= i < |s| ==> Plain(s[i])
    ensures Bridge.FirstNul(s) == |s|
    ensures var b := Encode(s);
      !Scanner.KeyBefore(b, |b|) && ScannerFacts.DigitsIn(b, |b|) == 0
  {
    EncodeAscii(s);
    var b := Encode(s);
    forall q | 0 <= q < |b| ensures !Scanner.KeyAt(b, q) && !Scanner.IsDigit(b[q]) {
      assert Plain(s[q]);
      if q + 1 < |b| {
        assert Plain(s[q + 1]);
      }
    }
    ScannerFacts.NoDigitsCountZero(b, |b|);
  }

  /** The e-mail address is not a kind of PII the scanner looks for: the prompt
      reaches the model unchanged, routed to the premium tier on "summarize", and
      a successful reply is logged PROCESSED with no risk. */
  lemma EmailPromptPassesThrough(
    log: seq<LogRecord>, userId: string, latencyMs: real,
    showLatency: real -> string, dispatch: (string, string) -> Dispatch)
    requires dispatch(EmailPrompt, Routing.Premium.model).Ok?
    ensures var o := ChatWithAi(log, Request(userId, EmailPrompt), latencyMs, showLatency, dispatch);
      && o.trace[2] == Dispatched(EmailPrompt, Routing.Premium.model)
      && o.response.status == Processed && !o.response.riskDetected
      && o.log[|log|].status == Processed && !o.log[|log|].riskDetected
      && o.log[|log|].promptLength == 44
  {
    var request := Request(userId, EmailPrompt);
    EmailPromptScan(latencyMs);
    EmailPromptRoute();
    StepsInOrder(log, request, latencyMs, showLatency, dispatch);
    DispatchSuccessStatus(log, request, latencyMs, showLatency, dispatch);
  }

  /** Non-empty plain text is not touched by the scan and reports no risk. */
  lemma PlainTextPassesThrough(s: string, latencyMs: real)
    requires s != "" && forall i :: 0 <= i < |s| ==> Plain(s[i])
    ensures Bridge.ScanAndRedact(s, latencyMs) == Bridge.BridgeResult(s, false, latencyMs)
  {
    PlainTextBytes(s);
    Bridge.CleanTextPassesThrough(s, latencyMs);
  }

  lemma EmailPromptScan(latencyMs: real)
    ensures Bridge.ScanAndRedact(EmailPrompt, latencyMs) == Bridge.BridgeResult(EmailPrompt, false, latencyMs)
  {
    EmailPromptPlain();
    var s := EmailPrompt;
    assert |s| == 44;
    PlainTextPassesThrough(s, latencyMs);
  }

  lemma EmailPromptRoute()
    ensures Routing.GetIntelligentRoute(EmailPrompt) == Routing.Premium
  {
    var s := EmailPrompt;
    assert Routing.Lower(s)[30..39] == "summarize";
    assert Routing.OccursAt(Routing.Lower(s), Routing.Triggers[5], 30);
  }
}

=== FILE: routing.dfy ===
/** get_intelligent_route: picks the model tier for a (redacted) prompt from
    keyword triggers in the lower-cased text or a whitespace-token count above 30. */
module Routing {

  datatype Route = Route(model: string, tier: string)

  const Premium := Route("llama-3.3-70b-versatile", "PREMIUM_REASONING")
  const Standard := Route("llama-3.1-8b-instant", "STANDARD_FAST")

  /** Substrings of the lower-cased prompt that mark a complex task. */
  const Triggers: seq<string> :=
    ["write a", "explain", "code", "python", "analyze", "summarize", "step by step", "how to"]

  /** A prompt with more tokens than this is long. */
  const LongPromptTokens: nat := 30

  /** Lower-casing of one character; only ASCII letters are mapped. */
  function LowerChar(c: char): (r: char)
    ensures 'A' <= c <= 'Z' ==> r as int == c as int + 32
    ensures !('A' <= c <= 'Z') ==> r == c
  {
    if 'A' <= c <= 'Z' then (c as int + 32) as char else c
  }

  function Lower(s: string): (r: string)
    ensures |r| == |s| && forall i :: 0 <= i < |s| ==> r[i] == LowerChar(s[i])
  {
    seq(|s|, i requires 0 <= i < |s| => LowerChar(s[i]))
  }

  /** w occurs in s starting at index i. */
  predicate OccursAt(s: string, w: string, i: int)
  {
    0 <= i && i + |w| <= |s| && s[i..i + |w|] == w
  }

  /** Python's `w in s` for strings. */
  predicate Contains(s: string, w: string)
  {
    exists i :: 0 <= i <= |s| - |w| && OccursAt(s, w, i)
  }

  /** The characters for which Python's str.isspace() holds; str.split() with no
      argument splits on runs of them. */
  predicate IsSpace(c: char)
  {
    || 9 <= c as int <= 13 || 28 <= c as int <= 32
    || c as int == 0x85 || c as int == 0xA0 || c as int == 0x1680
    || 0x2000 <= c as int <= 0x200A
    || c as int == 0x2028 || c as int == 0x2029 || c as int == 0x202F
    || c as int == 0x205F || c as int == 0x3000
  }

  /** Length of the run of non-space characters at the front of s. */
  function WordLen(s: string): (n: nat)
    ensures n <= |s|
    ensures forall i :: 0 <= i < n ==> !IsSpace(s[i])
    ensures n < |s| ==> IsSpace(s[n])
  {
    if |s| == 0 || IsSpace(s[0]) then 0 else 1 + WordLen(s[1..])
  }

  /** str.split() with no argument: the maximal runs of non-space characters. */
  function Split(s: string): (words: seq<string>)
    ensures forall k :: 0 <= k < |words| ==> |words[k]| > 0
    ensures forall k, i :: 0 <= k < |words| && 0 <= i < |words[k]| ==> !IsSpace(words[k][i])
    decreases |s|
  {
    if |s| == 0 then []
    else if IsSpace(s[0]) then Split(s[1..])
    else
      var n := WordLen(s);
      [s[..n]] + Split(s[n..])
  }

  predicate IsComplex(prompt: string)
  {
    exists k :: 0 <= k < |Triggers| && Contains(Lower(prompt), Triggers[k])
  }

  predicate IsLong(prompt: string)
  {
    |Split(prompt)| > LongPromptTokens
  }

  /** get_intelligent_route. */
  function GetIntelligentRoute(prompt: string): (r: Route)
    ensures r == Premium || r == Standard
    ensures r == Premium <==> IsComplex(prompt) || IsLong(prompt)
  {
    if IsComplex(prompt) || IsLong(prompt) then Premium else Standard
  }
}

=== FILE: routing_facts.dfy ===
/** Properties of the routing decision. */
module RoutingFacts {
  import opened Routing

  /** Number of word starts in s: non-space characters preceded by a space (or,
      for the first character, by `afterSpace`). */
  function WordStarts(s: string, afterSpace: bool): nat
    decreases |s|
  {
    if |s| == 0 then 0
    else (if afterSpace && !IsSpace(s[0]) then 1 else 0) + WordStarts(s[1..], IsSpace(s[0]))
  }

  /** Inside a word, the count does not change until the word ends. */
  lemma {:induction false} SkipWord(s: string, n: nat)
    requires 0 < n <= |s| && n == WordLen(s)
    ensures WordStarts(s[1..], false) == WordStarts(s[n..], true)
    decreases n
  {
    if n > 1 {
      assert WordLen(s[1..]) == n - 1;
      SkipWord(s[1..], n - 1);
      assert s[1..][n - 1..] == s[n..];
    } else if n < |s| {
      assert s[1..] == s[n..];
      assert IsSpace(s[n]);
    } else {
      assert s[1..] == [];
    }
  }

  /** str.split() returns one word per word start. */
  lemma {:induction false} SplitCountsWordStarts(s: string)
    ensures |Split(s)| == WordStarts(s, true)
    decreases |s|
  {
    if |s| > 0 {
      if IsSpace(s[0]) {
        SplitCountsWordStarts(s[1..]);
      } else {
        var n := WordLen(s);
        SplitCountsWordStarts(s[n..]);
        SkipWord(s, n);
      }
    }
  }

  /** The word count only depends on which positions hold spaces. */
  lemma {:induction false} WordStartsBySpaces(p: string, q: string, b: bool)
    requires |p| == |q| && forall i :: 0 <= i < |p| ==> IsSpace(p[i]) == IsSpace(q[i])
    ensures WordStarts(p, b) == WordStarts(q, b)
    decreases |p|
  {
    if |p| > 0 {
      WordStartsBySpaces(p[1..], q[1..], IsSpace(p[0]));
    }
  }

  /** Prompts that agree up to the case of ASCII letters get the same route:
      triggers are matched in the lower-cased text and lower-casing keeps spaces. */
  lemma RouteIgnoresCase(p: string, q: string)
    requires Lower(p) == Lower(q)
    ensures GetIntelligentRoute(p) == GetIntelligentRoute(q)
  {
    assert forall i :: 0 <= i < |p| ==> IsSpace(p[i]) == IsSpace(Lower(p)[i]);
    assert forall i :: 0 <= i < |q| ==> IsSpace(q[i]) == IsSpace(Lower(q)[i]);
    WordStartsBySpaces(p, q, true);
    SplitCountsWordStarts(p);
    SplitCountsWordStarts(q);
  }

  /** A word that has a character the text lacks does not occur in it. */
  lemma MissingCharNotContained(s: string, w: string, j: int)
    requires 0 <= j < |w| && forall i :: 0 <= i < |s| ==> s[i] != w[j]
    ensures !Contains(s, w)
  {
    forall i | 0 <= i <= |s| - |w| ensures !OccursAt(s, w, i) {
      assert s[i..i + |w|][j] == s[i + j];
    }
  }

  /** Every trigger has a character outside {'h', 'i', ' '}. */
  lemma NoTriggerInHiText(s: string)
    requires forall i :: 0 <= i < |s| ==> s[i] == 'h' || s[i] == 'i' || s[i] == ' '
    ensures !IsComplex(s)
  {
    assert Lower(s) == s;
    MissingCharNotContained(s, Triggers[0], 0);
    MissingCharNotContained(s, Triggers[1], 0);
    MissingCharNotContained(s, Triggers[2], 0);
    MissingCharNotContained(s, Triggers[3], 0);
    MissingCharNotContained(s, Triggers[4], 0);
    MissingCharNotContained(s, Triggers[5], 0);
    MissingCharNotContained(s, Triggers[6], 0);
    MissingCharNotContained(s, Triggers[7], 1);
  }

  /** "explain quantum computing" goes to the premium tier on its trigger. */
  lemma ExplainIsPremium()
    ensures GetIntelligentRoute("explain quantum computing") == Premium
  {
    var s := "explain quantum computing";
    assert Lower(s)[0..7] == "explain";
    assert OccursAt(Lower(s), Triggers[1], 0);
  }

  /** "hi" has one word and no trigger: standard tier. */
  lemma HiIsStandard()
    ensures GetIntelligentRoute("hi") == Standard
  {
    NoTriggerInHiText("hi");
    SplitCountsWordStarts("hi");
  }

  /** n copies of "hi ". */
  function HiWords(n: nat): (s: string)
    ensures forall i :: 0 <= i < |s| ==> s[i] == 'h' || s[i] == 'i' || s[i] == ' '
  {
    if n == 0 then "" else "hi " + HiWords(n - 1)
  }

  lemma {:induction false} HiWordsCount(n: nat)
    ensures |Split(HiWords(n))| == n
  {
    if n > 0 {
      var s := HiWords(n);
      assert s[..3] == "hi " && s[3..] == HiWords(n - 1);
      assert WordLen(s) == 2 by {
        assert WordLen(s[2..]) == 0;
        assert WordLen(s[1..]) == 1;
      }
      assert s[2..][1..] == s[3..];
      HiWordsCount(n - 1);
    }
  }

  /** A 31-word prompt without triggers goes to the premium tier on length alone. */
  lemma LongPromptIsPremium()
    ensures !IsComplex(HiWords(31)) && GetIntelligentRoute(HiWords(31)) == Premium
  {
    NoTriggerInHiText(HiWords(31));
    HiWordsCount(31);
  }
}

=== FILE: scanner.dfy ===
/** The native redaction scanner `analyze_and_redact`: one left-to-right pass
    over a NUL-terminated byte buffer that overwrites bytes with '*' in place
    and returns a risk flag.

    `Redact` describes the outcome declaratively: which bytes end up masked and
    when the flag is 1. `AnalyzeAndRedact` is the in-place loop itself, over an
    array, and is proved to produce exactly that outcome. */
module Scanner {
  import opened Utf8

  const Star: Byte := 42      // '*'
  const Space: Byte := 32     // ' '
  const Newline: Byte := 10   // '\n'
  const Dash: Byte := 45      // '-'
  const LetterS: Byte := 115  // 's'
  const LetterK: Byte := 107  // 'k'
  const Nul: Byte := 0

  /** Digits counted (spaces and dashes allowed in between) before a run is masked. */
  const DigitThreshold: nat := 13

  predicate IsDigit(b: Byte) { 48 <= b <= 57 }

  /** Bytes that neither count as digits nor reset the digit counter. */
  predicate KeepsCount(b: Byte) { b == Space || b == Dash }

  /** Bytes that end the masking of an API key. */
  predicate EndsKey(b: Byte) { b == Space || b == Newline }

  /** strlen: the index of the first NUL, or the buffer length if there is none. */
  function StrLen(buf: seq<Byte>): (n: nat)
    ensures n <= |buf|
    ensures forall j :: 0 <= j < n ==> buf[j] != Nul
    ensures n < |buf| ==> buf[n] == Nul
  {
    if |buf| == 0 || buf[0] == Nul then 0 else 1 + StrLen(buf[1..])
  }

  /** The scanned string: the buffer up to its first NUL, which is also what
      ctypes reads back as buf.value. */
  function Scanned(buf: seq<Byte>): (t: seq<Byte>)
    ensures |t| == StrLen(buf) && t == buf[..|t|]
  {
    buf[..StrLen(buf)]
  }

  /** The API-key prefix "sk-" starts at q. */
  predicate KeyAt(t: seq<Byte>, q: int)
  {
    0 <= q && q + 3 <= |t| && t[q] == LetterS && t[q + 1] == LetterK && t[q + 2] == Dash
  }

  /** No byte of t[a..b] ends an API key. */
  predicate NoKeyEnd(t: seq<Byte>, a: int, b: int)
    requires 0 <= a && b <= |t|
  {
    forall m :: a <= m < b ==> !EndsKey(t[m])
  }

  /** Position p lies in the masked tail of a "sk-" prefix that starts before n:
      the prefix ends before p and no space or newline lies in between. */
  predicate TailBefore(t: seq<Byte>, p: int, n: int)
    requires 0 <= p < |t|
    decreases p
  {
    p >= 3 && !EndsKey(t[p]) && ((KeyAt(t, p - 3) && p - 3 < n) || TailBefore(t, p - 1, n))
  }

  /** Position p is masked by the API-key rule. */
  predicate InTail(t: seq<Byte>, p: int)
    requires 0 <= p < |t|
  {
    TailBefore(t, p, |t|)
  }

  /** The bytes the digit rule sees: the API-key rule masks ahead of the cursor,
      so a byte in a key tail is already '*' when the cursor reaches it. */
  function Effective(t: seq<Byte>): (e: seq<Byte>)
    ensures |e| == |t|
    ensures forall p :: 0 <= p < |t| ==> e[p] == if InTail(t, p) then Star else t[p]
  {
    seq(|t|, p requires 0 <= p < |t| => if InTail(t, p) then Star else t[p])
  }

  /** The digit counter after the first n bytes of e: a digit increments it,
      a space or dash leaves it, anything else resets it. */
  function DigitCount(e: seq<Byte>, n: nat): (c: nat)
    requires n <= |e|
    ensures c <= n
    ensures c > 0 ==> !IsDigit(e[n - 1]) ==> KeepsCount(e[n - 1])
  {
    if n == 0 then 0
    else
      var prev := DigitCount(e, n - 1);
      if IsDigit(e[n - 1]) then prev + 1
      else if KeepsCount(e[n - 1]) then prev
      else 0
  }

  /** At cursor i the counter reached the threshold and its backward window of
      DigitCount positions reaches back over p. */
  predicate Covers(e: seq<Byte>, i: int, p: int)
    requires 0 <= p <= i < |e|
  {
    IsDigit(e[i]) && DigitCount(e, i + 1) >= DigitThreshold && i - DigitCount(e, i + 1) < p
  }

  /** The digit rule has masked p by the time the cursor reaches n. */
  predicate DigitMaskedBefore(e: seq<Byte>, p: int, n: int)
    requires 0 <= p < |e| && n <= |e|
  {
    IsDigit(e[p]) && exists i :: p <= i < n && Covers(e, i, p)
  }

  /** The digit counter reached the threshold at some cursor before n. */
  predicate DigitTriggerBefore(e: seq<Byte>, n: int)
    requires n <= |e|
  {
    exists i :: 0 <= i < n && IsDigit(e[i]) && DigitCount(e, i + 1) >= DigitThreshold
  }

  /** Some "sk-" prefix starts before n and has at least one byte after it. */
  predicate KeyBefore(t: seq<Byte>, n: int)
  {
    exists q :: 0 <= q < n && q + 3 < |t| && KeyAt(t, q)
  }

  /** Result of one call: the buffer after the call and the returned int. */
  datatype Scan = Scan(text: seq<Byte>, risk: int)

  /** The byte at p after the whole pass over the string t. */
  function MaskedByte(t: seq<Byte>, p: int): (b: Byte)
    requires 0 <= p < |t|
    ensures b == t[p] || b == Star
  {
    if InTail(t, p) || DigitMaskedBefore(Effective(t), p, |t|) then Star else t[p]
  }

  /** What analyze_and_redact leaves in the buffer and returns. */
  function Redact(buf: seq<Byte>): (r: Scan)
    ensures |r.text| == |buf|
    ensures r.risk == 0 || r.risk == 1
    ensures forall p :: 0 <= p < |buf| ==> r.text[p] == buf[p] || r.text[p] == Star
    ensures forall p :: StrLen(buf) <= p < |buf| ==> r.text[p] == buf[p]
  {
    var len := StrLen(buf);
    var t := Scanned(buf);
    Scan(seq(|buf|, p requires 0 <= p < |buf| => if p < len then MaskedByte(t, p) else buf[p]),
         RiskBefore(t, len))
  }

  /** Once n is past p's last candidate prefix, more prefixes do not matter. */
  lemma {:induction false} TailBeforeSaturates(t: seq<Byte>, p: int, n: int)
    requires 0 <= p < |t| && n >= p - 2
    ensures TailBefore(t, p, n) == InTail(t, p)
    decreases p
  {
    if p >= 3 {
      TailBeforeSaturates(t, p - 1, n);
      TailBeforeSaturates(t, p - 1, |t|);
    }
  }

  /** Admitting the prefix that starts at n adds exactly its own tail. */
  lemma {:induction false} TailBeforeStep(t: seq<Byte>, p: int, n: int)
    requires 0 <= p < |t| && 0 <= n
    ensures TailBefore(t, p, n + 1) <==>
      TailBefore(t, p, n) || (KeyAt(t, n) && n + 3 <= p && NoKeyEnd(t, n + 3, p + 1))
    decreases p
  {
    if p >= 3 {
      TailBeforeStep(t, p - 1, n);
    }
  }

  /** Before the cursor has moved there are no tails. */
  lemma {:induction false} NoTailBeforeStart(t: seq<Byte>, p: int)
    requires 0 <= p < |t|
    ensures !TailBefore(t, p, 0)
    decreases p
  {
    if p >= 3 {
      NoTailBeforeStart(t, p - 1);
    }
  }

  /** A tail runs on until a space or newline. */
  lemma {:induction false} TailExtend(t: seq<Byte>, a: int, b: int, n: int)
    requires 0 <= a < b < |t| && TailBefore(t, a, n) && NoKeyEnd(t, a + 1, b + 1)
    ensures TailBefore(t, b, n)
    decreases b - a
  {
    if b > a + 1 {
      TailExtend(t, a, b - 1, n);
    }
  }

  /** Every tail position has its "sk-" prefix before it. */
  lemma {:induction false} TailOrigin(t: seq<Byte>, p: int, n: int)
    requires 0 <= p < |t| && TailBefore(t, p, n)
    ensures exists q :: 0 <= q < n && q + 3 <= p && KeyAt(t, q)
    decreases p
  {
    if !(KeyAt(t, p - 3) && p - 3 < n) {
      TailOrigin(t, p - 1, n);
    }
  }

  /** A key prefix inside an earlier key's tail adds nothing to the masking. */
  lemma HiddenKeyAddsNothing(t: seq<Byte>, i: int, p: int)
    requires 0 <= i && i + 3 <= p < |t| && KeyAt(t, i) && TailBefore(t, i, i)
    requires NoKeyEnd(t, i + 3, p + 1)
    ensures TailBefore(t, p, i)
  {
    assert NoKeyEnd(t, i + 1, p + 1);
    TailExtend(t, i, p, i);
  }

  lemma DigitMaskedStep(e: seq<Byte>, p: int, n: int)
    requires 0 <= p <= n < |e|
    ensures DigitMaskedBefore(e, p, n + 1) <==>
      DigitMaskedBefore(e, p, n) || (IsDigit(e[p]) && Covers(e, n, p))
  {
    if DigitMaskedBefore(e, p, n + 1) && !(IsDigit(e[p]) && Covers(e, n, p)) {
      var j :| p <= j < n + 1 && Covers(e, j, p);
      assert j < n;
    }
  }

  lemma DigitTriggerStep(e: seq<Byte>, n: int)
    requires 0 <= n < |e|
    ensures DigitTriggerBefore(e, n + 1) <==>
      DigitTriggerBefore(e, n) || (IsDigit(e[n]) && DigitCount(e, n + 1) >= DigitThreshold)
  {
    if DigitTriggerBefore(e, n + 1) && !(IsDigit(e[n]) && DigitCount(e, n + 1) >= DigitThreshold) {
      var j :| 0 <= j < n + 1 && IsDigit(e[j]) && DigitCount(e, j + 1) >= DigitThreshold;
      assert j < n;
    }
  }

  lemma KeyStep(t: seq<Byte>, n: int)
    requires 0 <= n
    ensures KeyBefore(t, n + 1) <==> KeyBefore(t, n) || (n + 3 < |t| && KeyAt(t, n))
  {
    if KeyBefore(t, n + 1) && !(n + 3 < |t| && KeyAt(t, n)) {
      var q :| 0 <= q < n + 1 && q + 3 < |t| && KeyAt(t, q);
      assert q < n;
    }
  }

  /** The inner backward loop: within the window (i - count, i] every digit becomes '*'. */
  method MaskDigitsBackward(text: array<Byte>, i: int, count: int)
    requires 0 <= i < text.Length && 0 < count <= i + 1
    modifies text
    ensures forall p :: 0 <= p < text.Length ==>
      text[p] == if i - count < p <= i && IsDigit(old(text[p])) then Star else old(text[p])
  {
    var j := 0;
    while j < count
      invariant 0 <= j <= count
      invariant forall p :: 0 <= p < text.Length ==>
        text[p] == if i - j < p <= i && IsDigit(old(text[p])) then Star else old(text[p])
    {
      if IsDigit(text[i - j]) {
        text[i - j] := Star;
      }
      j := j + 1;
    }
  }

  /** The inner forward loop: mask from `start` up to the next space or newline, or `len`. */
  method MaskUntilKeyEnd(text: array<Byte>, start: int, len: int) returns (stop: int)
    requires 0 <= start <= len <= text.Length
    modifies text
    ensures start <= stop <= len
    ensures stop < len ==> EndsKey(old(text[stop]))
    ensures forall p :: start <= p < stop ==> !EndsKey(old(text[p]))
    ensures forall p :: 0 <= p < text.Length ==>
      text[p] == if start <= p < stop then Star else old(text[p])
  {
    stop := start;
    while stop < len && !EndsKey(text[stop])
      invariant start <= stop <= len
      invariant forall p :: start <= p < stop ==> !EndsKey(old(text[p]))
      invariant forall p :: 0 <= p < text.Length ==>
        text[p] == if start <= p < stop then Star else old(text[p])
    {
      text[stop] := Star;
      stop := stop + 1;
    }
  }

  /** The buffer once the cursor has reached i: bytes before it are final
      except for later backward digit windows, bytes after it carry the tails
      of the keys found so far. */
  ghost predicate ScannedTo(s: seq<Byte>, buf: seq<Byte>, len: int, i: int)
  {
    var t := Scanned(buf);
    var e := Effective(t);
    && |s| == |buf| && len == StrLen(buf) && 0 <= i <= len
    && (forall p :: len <= p < |s| ==> s[p] == buf[p])
    && (forall p :: 0 <= p < i ==>
          s[p] == if InTail(t, p) || DigitMaskedBefore(e, p, i) then Star else t[p])
    && (forall p :: i <= p < len ==> s[p] == if TailBefore(t, p, i) then Star else t[p])
  }

  /** As ScannedTo(s, buf, len, i + 1), except that the key rule has not run at i yet. */
  ghost predicate DigitRuleDone(s: seq<Byte>, buf: seq<Byte>, len: int, i: int)
  {
    var t := Scanned(buf);
    var e := Effective(t);
    && |s| == |buf| && len == StrLen(buf) && 0 <= i < len
    && (forall p :: len <= p < |s| ==> s[p] == buf[p])
    && (forall p :: 0 <= p <= i ==>
          s[p] == if InTail(t, p) || DigitMaskedBefore(e, p, i + 1) then Star else t[p])
    && (forall p :: i < p < len ==> s[p] == if TailBefore(t, p, i) then Star else t[p])
  }

  /** When the counter does not reach the threshold at i, nothing is masked. */
  lemma NoWindowAt(s: seq<Byte>, buf: seq<Byte>, len: int, i: int)
    requires i < len && ScannedTo(s, buf, len, i)
    requires var e := Effective(buf[..len]);
      !(IsDigit(e[i]) && DigitCount(e, i + 1) >= DigitThreshold)
    ensures DigitRuleDone(s, buf, len, i)
  {
    var t := Scanned(buf);
    assert t == buf[..len];
    var e := Effective(t);
    TailBeforeSaturates(t, i, i);
    forall p | 0 <= p <= i
      ensures s[p] == if InTail(t, p) || DigitMaskedBefore(e, p, i + 1) then Star else t[p]
    {
      DigitMaskedStep(e, p, i);
    }
  }

  /** When the counter reaches the threshold at i, the backward window masks the
      digits it covers. */
  lemma WindowAt(s: seq<Byte>, s': seq<Byte>, buf: seq<Byte>, len: int, i: int, count: int)
    requires i < len && ScannedTo(s, buf, len, i)
    requires var e := Effective(buf[..len]);
      IsDigit(e[i]) && count == DigitCount(e, i + 1) >= DigitThreshold
    requires |s'| == |s|
    requires forall p :: 0 <= p < |s| ==>
      s'[p] == if i - count < p <= i && IsDigit(s[p]) then Star else s[p]
    ensures DigitRuleDone(s', buf, len, i)
  {
    var t := Scanned(buf);
    assert t == buf[..len];
    var e := Effective(t);
    TailBeforeSaturates(t, i, i);
    forall p | 0 <= p <= i
      ensures s'[p] == if InTail(t, p) || DigitMaskedBefore(e, p, i + 1) then Star else t[p]
    {
      DigitMaskedStep(e, p, i);
    }
  }

  /** Step 1 of the loop body at cursor i: the digit-run rule. */
  method DigitRule(text: array<Byte>, ghost buf: seq<Byte>, len: int, i: int, count: int)
    returns (count': int, found: bool)
    requires i < len && ScannedTo(text[..], buf, len, i)
    requires count == DigitCount(Effective(buf[..len]), i)
    modifies text
    ensures DigitRuleDone(text[..], buf, len, i)
    ensures count' == DigitCount(Effective(buf[..len]), i + 1)
    ensures found <==>
      IsDigit(Effective(buf[..len])[i]) && DigitCount(Effective(buf[..len]), i + 1) >= DigitThreshold
  {
    ghost var t := buf[..len];
    ghost var e := Effective(t);
    TailBeforeSaturates(t, i, i);
    assert text[i] == e[i];
    count' := count;
    found := false;
    if IsDigit(text[i]) {
      count' := count + 1;
      if count' >= DigitThreshold {
        ghost var before := text[..];
        MaskDigitsBackward(text, i, count');
        WindowAt(before, text[..], buf, len, i, count');
        found := true;
      }
    } else if !KeepsCount(text[i]) {
      count' := 0;
    }
    if !found {
      NoWindowAt(text[..], buf, len, i);
    }
  }

  /** Step 2 of the loop body at cursor i: the API-key rule. */
  method KeyRule(text: array<Byte>, ghost buf: seq<Byte>, len: int, i: int)
    returns (found: bool)
    requires DigitRuleDone(text[..], buf, len, i)
    modifies text
    ensures ScannedTo(text[..], buf, len, i + 1)
    ensures found ==> KeyBefore(buf[..len], i + 1)
    ensures KeyBefore(buf[..len], i + 1) ==> found || KeyBefore(buf[..len], i)
  {
    ghost var t := buf[..len];
    KeyStep(t, i);
    if KeyAt(t, i) {
      TailBeforeSaturates(t, i, i);
      TailBeforeSaturates(t, i + 1, i);
      TailBeforeSaturates(t, i + 2, i);
    }
    found := false;
    if i + 3 < len && text[i] == LetterS && text[i + 1] == LetterK && text[i + 2] == Dash {
      assert KeyAt(t, i);
      ghost var before := text[..];
      var stop := MaskUntilKeyEnd(text, i + 3, len);
      forall p | i < p < len
        ensures text[p] == if TailBefore(t, p, i + 1) then Star else t[p]
      {
        TailBeforeStep(t, p, i);
        if i + 3 <= p && stop <= p && stop < len {
          assert !NoKeyEnd(t, i + 3, p + 1) by {
            assert EndsKey(before[stop]);
          }
        }
      }
      found := true;
    } else {
      forall p | i < p < len
        ensures TailBefore(t, p, i + 1) == TailBefore(t, p, i)
      {
        TailBeforeStep(t, p, i);
        if KeyAt(t, i) && i + 3 <= p && NoKeyEnd(t, i + 3, p + 1) {
          HiddenKeyAddsNothing(t, i, p);
        }
      }
      if i + 3 < len && KeyAt(t, i) {
        TailOrigin(t, i, i);
      }
    }
  }

  /** strlen over the buffer. */
  method FindStrLen(text: array<Byte>) returns (len: int)
    ensures len == StrLen(text[..])
  {
    len := 0;
    while len < text.Length && text[len] != Nul
      invariant 0 <= len <= text.Length
      invariant forall j :: 0 <= j < len ==> text[j] != Nul
    {
      len := len + 1;
    }
  }

  /** Before the loop nothing has been masked. */
  lemma ScannedAtStart(buf: seq<Byte>)
    ensures ScannedTo(buf, buf, StrLen(buf), 0)
  {
    var t := Scanned(buf);
    forall p | 0 <= p < |t| {
      NoTailBeforeStart(t, p);
    }
  }

  /** After the loop the buffer is the one Redact describes. */
  lemma ScannedAtEnd(s: seq<Byte>, buf: seq<Byte>)
    requires ScannedTo(s, buf, StrLen(buf), StrLen(buf))
    ensures s == Redact(buf).text
  {
  }

  /** The flag after the cursor has passed the first n bytes. */
  function RiskBefore(t: seq<Byte>, n: int): int
    requires n <= |t|
  {
    if KeyBefore(t, n) || DigitTriggerBefore(Effective(t), n) then 1 else 0
  }

  /** One pass of the loop body at cursor i: both rules, and the flag. */
  method ScanStep(text: array<Byte>, ghost buf: seq<Byte>, len: int, i: int, count: int, risk: int)
    returns (count': int, risk': int)
    requires i < len && ScannedTo(text[..], buf, len, i)
    requires count == DigitCount(Effective(buf[..len]), i)
    requires risk == RiskBefore(buf[..len], i)
    modifies text
    ensures ScannedTo(text[..], buf, len, i + 1)
    ensures count' == DigitCount(Effective(buf[..len]), i + 1)
    ensures risk' == RiskBefore(buf[..len], i + 1)
  {
    DigitTriggerStep(Effective(buf[..len]), i);
    var digitsFound;
    count', digitsFound := DigitRule(text, buf, len, i, count);
    var keyFound := KeyRule(text, buf, len, i);
    risk' := if digitsFound || keyFound then 1 else risk;
  }

  /** analyze_and_redact on a copy of `buf`: the returned buffer and int are
      exactly what `Redact` describes. */
  method AnalyzeAndRedact(buf: seq<Byte>) returns (out: seq<Byte>, risk: int)
    ensures Scan(out, risk) == Redact(buf)
  {
    var text := new Byte[|buf|](j requires 0 <= j < |buf| => buf[j]);
    assert text[..] == buf;
    var len := FindStrLen(text);
    assert len == StrLen(buf);
    ScannedAtStart(buf);

    risk := 0;
    var digitCount := 0;
    var i := 0;
    while i < len
      invariant ScannedTo(text[..], buf, len, i)
      invariant digitCount == DigitCount(Effective(buf[..len]), i)
      invariant risk == RiskBefore(buf[..len], i)
    {
      digitCount, risk := ScanStep(text, buf, len, i, digitCount, risk);
      i := i + 1;
    }
    out := text[..];
    ScannedAtEnd(out, buf);
  }
}

=== FILE: scanner_examples.dfy ===
/** Worked inputs that pin down behaviour of analyze_and_redact an idealised
    redactor would not have. */
module ScannerExamples {
  import opened Utf8
  import opened Scanner
  import opened ScannerFacts

  /** The bytes of "sk- x". */
  function KeyInput(): seq<Byte>
  {
    [115, 107, 45, 32, 120]
  }

  /** No byte of "sk- x" is a digit or lies in a key tail. */
  lemma KeyInputPlain(p: int)
    requires 0 <= p < 5
    ensures MaskedByte(KeyInput(), p) == KeyInput()[p]
  {
    var t := KeyInput();
    assert !TailBefore(t, 3, 5);
    assert !KeyAt(t, 1);
    assert !TailBefore(t, 4, 5);
    assert !InTail(t, p) && !IsDigit(t[p]);
  }

  /** "sk- x": the key rule fires (flag 1) although the byte after the prefix is
      a space, so nothing is masked. */
  lemma KeyFlagWithoutMasking()
    ensures Redact(KeyInput()) == Scan(KeyInput(), 1)
  {
    var buf := KeyInput();
    assert forall j :: 0 <= j < 5 ==> buf[j] != Nul;
    assert StrLen(buf) == 5;
    assert Scanned(buf) == buf;
    var out := Redact(buf).text;
    forall p | 0 <= p < 5 ensures out[p] == buf[p] {
      RedactAt(buf, p);
      KeyInputPlain(p);
    }
    assert out == buf;
    assert KeyAt(buf, 0);
  }

  /** The bytes of "sk-sk-x". */
  function NestedKeyInput(): seq<Byte>
  {
    [115, 107, 45, 115, 107, 45, 120]
  }

  /** The bytes of "sk-****". */
  function NestedKeyOutput(): seq<Byte>
  {
    [115, 107, 45, 42, 42, 42, 42]
  }

  lemma NestedKeyStrLen()
    ensures StrLen(NestedKeyInput()) == 7 && Scanned(NestedKeyInput()) == NestedKeyInput()
  {
  }

  /** Each byte of "sk-sk-x" after the call. */
  lemma NestedKeyByte(p: int)
    requires 0 <= p < 7
    ensures Redact(NestedKeyInput()).text[p] == NestedKeyOutput()[p]
  {
    var buf := NestedKeyInput();
    NestedKeyStrLen();
    if p < 3 {
      assert !InTail(buf, 0);
      KeyKeptOutsideTail(buf, 0);
    } else {
      assert KeyAt(buf, 0) && NoKeyEnd(buf, 3, p + 1);
      KeyTailMasked(buf, 0, p);
    }
  }

  /** "sk-sk-x" becomes "sk-****": the second prefix lies in the first one's
      tail and is masked with it; only the first prefix survives. */
  lemma NestedKeyMasked()
    ensures Redact(NestedKeyInput()).text == NestedKeyOutput()
  {
    var out := Redact(NestedKeyInput()).text;
    forall p | 0 <= p < 7 ensures out[p] == NestedKeyOutput()[p] {
      NestedKeyByte(p);
    }
  }

  /** The bytes of "1234-5678-9012-3456". */
  function CardInput(): seq<Byte>
  {
    [49, 50, 51, 52, 45, 53, 54, 55, 56, 45, 57, 48, 49, 50, 45, 51, 52, 53, 54]
  }

  /** The bytes of "123*-****-****-****". */
  function CardOutput(): seq<Byte>
  {
    [49, 50, 51, 42, 45, 42, 42, 42, 42, 45, 42, 42, 42, 42, 45, 42, 42, 42, 42]
  }

  /** The counter over the first eight bytes, "1234-567". */
  lemma CardCountsFirst()
    ensures forall n :: 0 <= n <= 8 ==> DigitCount(CardInput(), n) <= 7
    ensures DigitCount(CardInput(), 8) == 7
  {
    var c := CardInput();
    assert DigitCount(c, 1) == 1;
    assert DigitCount(c, 2) == 2;
    assert DigitCount(c, 3) == 3;
    assert DigitCount(c, 4) == 4;
    assert DigitCount(c, 5) == 4;
    assert DigitCount(c, 6) == 5;
    assert DigitCount(c, 7) == 6;
  }

  /** The counter stays below the threshold up to the third dash. */
  lemma CardCountsLow()
    ensures forall n :: 0 <= n <= 15 ==> DigitCount(CardInput(), n) < DigitThreshold
    ensures DigitCount(CardInput(), 15) == 12
  {
    var c := CardInput();
    CardCountsFirst();
    assert DigitCount(c, 9) == 8;
    assert DigitCount(c, 10) == 8;
    assert DigitCount(c, 11) == 9;
    assert DigitCount(c, 12) == 10;
    assert DigitCount(c, 13) == 11;
    assert DigitCount(c, 14) == 12;
  }

  lemma CardCounts()
    ensures forall n :: 0 <= n <= 15 ==> DigitCount(CardInput(), n) < DigitThreshold
    ensures forall n :: 16 <= n <= 19 ==> DigitCount(CardInput(), n) == n - 3
  {
    var c := CardInput();
    CardCountsLow();
    assert DigitCount(c, 16) == 13;
    assert DigitCount(c, 17) == 14;
    assert DigitCount(c, 18) == 15;
    assert DigitCount(c, 19) == 16;
  }

  /** Without an 's' byte there is no key prefix, so the digit rule sees the
      string as it is. */
  lemma NoLetterSNoTail(t: seq<Byte>)
    requires forall j :: 0 <= j < |t| ==> t[j] != LetterS
    ensures Effective(t) == t
  {
    forall p | 0 <= p < |t| ensures !InTail(t, p) {
      TailNeedsEarlierKey(t, p);
    }
  }

  lemma CardNoTails()
    ensures Effective(CardInput()) == CardInput()
  {
    var t := CardInput();
    assert forall j :: 0 <= j < |t| ==> t[j] != LetterS;
    NoLetterSNoTail(t);
  }

  lemma CardMasked(p: int)
    requires 0 <= p < 19
    ensures MaskedByte(CardInput(), p) == CardOutput()[p]
  {
    var e := CardInput();
    CardNoTails();
    CardCounts();
    if 3 <= p && IsDigit(e[p]) {
      var j := if p < 15 then 15 else p;
      assert Covers(e, j, p);
    } else {
      assert !DigitMaskedBefore(e, p, 19);
    }
  }

  lemma CardStrLen()
    ensures StrLen(CardInput()) == 19 && Scanned(CardInput()) == CardInput()
  {
    var buf := CardInput();
    assert forall j :: 0 <= j < |buf| ==> buf[j] != Nul;
  }

  lemma CardByte(p: int)
    requires 0 <= p < 19
    ensures Redact(CardInput()).text[p] == CardOutput()[p]
  {
    CardStrLen();
    CardMasked(p);
    RedactAt(CardInput(), p);
  }

  /** "1234-5678-9012-3456": the backward window spans as many positions as the
      counter has digits, so with separators the leading digits stay visible. */
  lemma SeparatedCardText()
    ensures Redact(CardInput()).text == CardOutput()
  {
    var out := Redact(CardInput()).text;
    var want := CardOutput();
    forall p | 0 <= p < 19 ensures out[p] == want[p] {
      CardByte(p);
    }
    assert |out| == |want|;
  }

  lemma SeparatedCardRisk()
    ensures Redact(CardInput()).risk == 1
  {
    var buf := CardInput();
    CardStrLen();
    CardNoTails();
    CardCounts();
    assert IsDigit(buf[15]) && DigitCount(buf, 16) >= DigitThreshold;
  }
}

=== FILE: scanner_facts.dfy ===
/** Properties of the scanner's outcome, stated in terms of the input buffer. */
module ScannerFacts {
  import opened Utf8
  import opened Scanner

  /** Number of ASCII digits among the first n bytes of s. */
  function DigitsIn(s: seq<Byte>, n: nat): nat
    requires n <= |s|
  {
    if n == 0 then 0 else DigitsIn(s, n - 1) + (if IsDigit(s[n - 1]) then 1 else 0)
  }

  /** Every tail position has a "sk-" prefix before it with no space or newline in between. */
  lemma {:induction false} TailWitness(t: seq<Byte>, p: int)
    requires 0 <= p < |t| && InTail(t, p)
    ensures exists q :: 0 <= q && q + 3 <= p && KeyAt(t, q) && NoKeyEnd(t, q + 3, p + 1)
    decreases p
  {
    if !KeyAt(t, p - 3) {
      TailWitness(t, p - 1);
      var q :| 0 <= q && q + 3 <= p - 1 && KeyAt(t, q) && NoKeyEnd(t, q + 3, p);
      assert NoKeyEnd(t, q + 3, p + 1);
    }
  }

  /** Conversely every byte after a "sk-" prefix, up to a space or newline, is in a tail. */
  lemma {:induction false} KeyReachesTail(t: seq<Byte>, q: int, p: int)
    requires KeyAt(t, q) && q + 3 <= p < |t| && NoKeyEnd(t, q + 3, p + 1)
    ensures InTail(t, p)
    decreases p
  {
    if p > q + 3 {
      KeyReachesTail(t, q, p - 1);
    }
  }

  /** Within the string, a masked byte was a digit or in a key tail. */
  lemma MaskedByteCause(t: seq<Byte>, p: int)
    requires 0 <= p < |t| && MaskedByte(t, p) != t[p]
    ensures !EndsKey(t[p])
    ensures IsDigit(t[p]) ||
      exists q :: 0 <= q && q + 3 <= p && KeyAt(t, q) && NoKeyEnd(t, q + 3, p + 1)
  {
    if !IsDigit(t[p]) {
      assert InTail(t, p);
      TailWitness(t, p);
    }
  }

  /** The byte at p after the call, for p inside the string. */
  lemma RedactAt(buf: seq<Byte>, p: int)
    requires 0 <= p < StrLen(buf)
    ensures Redact(buf).text[p] == MaskedByte(Scanned(buf), p)
  {
  }

  /** A byte changes only if it is a digit or follows a "sk-" prefix with no
      space or newline in between; it then becomes '*'. Bytes from the first NUL
      on never change. */
  lemma ChangedBytes(buf: seq<Byte>, p: int)
    requires 0 <= p < |buf| && Redact(buf).text[p] != buf[p]
    ensures Redact(buf).text[p] == Star
    ensures p < StrLen(buf)
    ensures var t := Scanned(buf);
      IsDigit(t[p]) || exists q :: 0 <= q && q + 3 <= p && KeyAt(t, q) && NoKeyEnd(t, q + 3, p + 1)
    ensures !EndsKey(buf[p])
  {
    var t := Scanned(buf);
    RedactAt(buf, p);
    MaskedByteCause(t, p);
  }

  /** Every byte after a "sk-" prefix up to the next space or newline (or the
      end of the string) becomes '*', and the call returns 1. */
  lemma KeyTailMasked(buf: seq<Byte>, q: int, p: int)
    requires var t := Scanned(buf); KeyAt(t, q) && q + 3 <= p < |t| && NoKeyEnd(t, q + 3, p + 1)
    ensures Redact(buf).text[p] == Star
    ensures Redact(buf).risk == 1
  {
    KeyReachesTail(Scanned(buf), q, p);
  }

  /** Over a run of digits the counter grows by one per digit. */
  lemma {:induction false} CountOverRun(e: seq<Byte>, a: int, m: int)
    requires 0 <= a && 0 <= m && a + m <= |e|
    requires forall x :: a <= x < a + m ==> IsDigit(e[x])
    ensures DigitCount(e, a + m) >= m
    decreases m
  {
    if m > 0 {
      CountOverRun(e, a, m - 1);
    }
  }

  /** Inside a run of digits a position is in a key tail iff the one before is. */
  lemma {:induction false} TailConstantOnRun(t: seq<Byte>, a: int, b: int, x: int)
    requires 0 <= a <= x < b <= |t|
    requires forall y :: a <= y < b ==> IsDigit(t[y])
    ensures InTail(t, x) == InTail(t, a)
    decreases x - a
  {
    if x > a {
      TailConstantOnRun(t, a, b, x - 1);
      assert !KeyAt(t, x - 3);
    }
  }

  /** A run of digits outside any key tail is seen unchanged by the digit rule. */
  lemma RunEffective(t: seq<Byte>, a: int, b: int)
    requires 0 <= a < b <= |t| && !InTail(t, a)
    requires forall x :: a <= x < b ==> IsDigit(t[x])
    ensures forall x :: a <= x < b ==> IsDigit(Effective(t)[x])
  {
    forall x | a <= x < b ensures !InTail(t, x) {
      TailConstantOnRun(t, a, b, x);
    }
  }

  /** Inside a run of 13 or more digits every byte is masked, by the key rule
      or by a digit window. */
  lemma RunPositionMasked(t: seq<Byte>, a: int, b: int, p: int)
    requires 0 <= a && a + DigitThreshold <= b <= |t| && a <= p < b
    requires forall x :: a <= x < b ==> IsDigit(t[x])
    ensures MaskedByte(t, p) == Star
  {
    TailConstantOnRun(t, a, b, p);
    if !InTail(t, a) {
      RunEffective(t, a, b);
      RunCovered(Effective(t), a, b, p);
    }
  }

  /** The window opened at the 13th digit of a run, or at any later digit of it,
      covers every digit of the run. */
  lemma RunCovered(e: seq<Byte>, a: int, b: int, p: int)
    requires 0 <= a && a + DigitThreshold <= b <= |e| && a <= p < b
    requires forall x :: a <= x < b ==> IsDigit(e[x])
    ensures DigitMaskedBefore(e, p, |e|)
  {
    var j := if p < a + 12 then a + 12 else p;
    CountOverRun(e, a, j + 1 - a);
    assert Covers(e, j, p);
  }

  /** A run of 13 or more digits raises the flag, by the key rule or by the digit rule. */
  lemma RunRaisesFlag(t: seq<Byte>, a: int, b: int)
    requires 0 <= a && a + DigitThreshold <= b <= |t|
    requires forall x :: a <= x < b ==> IsDigit(t[x])
    ensures KeyBefore(t, |t|) || DigitTriggerBefore(Effective(t), |t|)
  {
    var e := Effective(t);
    if InTail(t, a) {
      TailWitness(t, a);
    } else {
      RunEffective(t, a, b);
      CountOverRun(e, a, 13);
      assert IsDigit(e[a + 12]) && DigitCount(e, a + 13) >= DigitThreshold;
    }
  }

  /** A run of 13 or more contiguous ASCII digits is replaced by '*' entirely,
      and the call returns 1. */
  lemma DigitRunMasked(buf: seq<Byte>, a: int, b: int)
    requires 0 <= a && a + DigitThreshold <= b <= StrLen(buf)
    requires forall x :: a <= x < b ==> IsDigit(buf[x])
    ensures forall p :: a <= p < b ==> Redact(buf).text[p] == Star
    ensures Redact(buf).risk == 1
  {
    var t := Scanned(buf);
    forall p | a <= p < b ensures Redact(buf).text[p] == Star {
      RedactAt(buf, p);
      RunPositionMasked(t, a, b, p);
    }
    RunRaisesFlag(t, a, b);
  }

  /** The counter never exceeds the number of digits seen. */
  lemma {:induction false} CountAtMostDigits(e: seq<Byte>, n: nat)
    requires n <= |e|
    ensures DigitCount(e, n) <= DigitsIn(e, n)
    decreases n
  {
    if n > 0 {
      CountAtMostDigits(e, n - 1);
    }
  }

  /** Without a "sk-" prefix (followed by at least one byte) and with fewer than
      13 digits, the buffer is left as it was and the call returns 0. */
  lemma CleanInputUnchanged(buf: seq<Byte>)
    requires var t := Scanned(buf); !KeyBefore(t, |t|) && DigitsIn(t, |t|) < DigitThreshold
    ensures Redact(buf) == Scan(buf, 0)
  {
    var t := Scanned(buf);
    forall p | 0 <= p < |t| ensures !InTail(t, p) {
      if InTail(t, p) {
        TailOrigin(t, p, |t|);
      }
    }
    var e := Effective(t);
    assert e == t;
    forall n | 0 <= n <= |t| ensures DigitCount(e, n) < DigitThreshold {
      CountAtMostDigits(e, n);
      DigitsMonotone(e, n, |t|);
    }
    assert Redact(buf).text == buf;
  }

  lemma {:induction false} DigitsMonotone(s: seq<Byte>, m: nat, n: nat)
    requires m <= n <= |s|
    ensures DigitsIn(s, m) <= DigitsIn(s, n)
    decreases n - m
  {
    if m < n {
      DigitsMonotone(s, m, n - 1);
    }
  }

  /** The count is zero exactly when the first n bytes hold no digit. */
  lemma {:induction false} NoDigitsCountZero(s: seq<Byte>, n: nat)
    requires n <= |s|
    ensures DigitsIn(s, n) == 0 <==> forall j :: 0 <= j < n ==> !IsDigit(s[j])
  {
    if n > 0 {
      NoDigitsCountZero(s, n - 1);
    }
  }

  /** Masking hits ASCII digits and whole key tails, which end at ASCII bytes, so
      well-formed UTF-8 stays well-formed. */
  lemma MaskingKeepsUtf8(buf: seq<Byte>)
    requires Valid(Scanned(buf))
    ensures Valid(Redact(buf).text[..StrLen(buf)])
  {
    var t := Scanned(buf);
    var u := Redact(buf).text[..|t|];
    forall p | 0 < p < |t| && IsCont(t[p])
      ensures u[p] == t[p] <==> u[p - 1] == t[p - 1]
    {
      ContFollowsNonAscii(t, p);
      assert !KeyAt(t, p - 3);
    }
    assert WholeCharRewrite(t, u);
    WholeCharRewriteValid(t, u);
  }

  /** A key tail at p needs a "sk-" prefix that starts before p - 2. */
  lemma TailNeedsEarlierKey(t: seq<Byte>, p: int)
    requires 0 <= p < |t|
    ensures InTail(t, p) ==> KeyBefore(t, p - 2)
  {
    if InTail(t, p) {
      TailOrigin(t, p, |t|);
    }
  }

  /** If some key prefix is found, there is a first one. */
  lemma {:induction false} FirstKey(t: seq<Byte>, n: int)
    requires KeyBefore(t, n)
    ensures exists q :: 0 <= q < n && q + 3 < |t| && KeyAt(t, q) && !KeyBefore(t, q)
    decreases n
  {
    KeyStep(t, n - 1);
    if KeyBefore(t, n - 1) {
      FirstKey(t, n - 1);
    }
  }

  /** The first NUL stays where it was: masking never writes a NUL. */
  lemma RedactKeepsStrLen(buf: seq<Byte>)
    ensures StrLen(Redact(buf).text) == StrLen(buf)
  {
    var u := Redact(buf).text;
    forall p | 0 <= p < StrLen(buf) ensures u[p] != Nul {
      RedactAt(buf, p);
    }
  }

  /** A "sk-" prefix survives exactly when it does not lie in the tail of an
      earlier prefix; one inside such a tail is masked along with it. */
  lemma KeyKeptOutsideTail(buf: seq<Byte>, q: int)
    requires var t := Scanned(buf); KeyAt(t, q)
    ensures KeyAt(Redact(buf).text, q) <==> !InTail(Scanned(buf), q)
  {
  }

  /** The first "sk-" prefix itself is never masked. */
  lemma FirstKeyKept(buf: seq<Byte>, q: int)
    requires var t := Scanned(buf); q + 3 < |t| && KeyAt(t, q) && !KeyBefore(t, q)
    ensures KeyAt(Redact(buf).text, q)
  {
    var t := Scanned(buf);
    TailNeedsEarlierKey(t, q);
    KeyKeptOutsideTail(buf, q);
  }

  /** Scanning the output again reports risk again whenever a key prefix was
      found: the prefix survives, so the output is not risk-free. */
  lemma RescanStillFlagsKey(buf: seq<Byte>)
    requires var t := Scanned(buf); KeyBefore(t, |t|)
    ensures Redact(Redact(buf).text).risk == 1
  {
    var t := Scanned(buf);
    FirstKey(t, |t|);
    var q :| 0 <= q < |t| && q + 3 < |t| && KeyAt(t, q) && !KeyBefore(t, q);
    FirstKeyKept(buf, q);
    RedactKeepsStrLen(buf);
    var u := Redact(buf).text;
    assert KeyAt(Scanned(u), q);
  }
}

=== FILE: utf8.dfy ===
/** UTF-8 as Python's str.encode('utf-8') produces it and bytes.decode('utf-8')
    accepts it: well-formed byte sequences per Table 3-7 of the Unicode
    Standard (no overlongs, no surrogates, nothing above U+10FFFF). */
module Utf8 {

  newtype Byte = x: int | 0 <= x < 256

  datatype Option<T> = None | Some(value: T)

  /** A continuation byte 10xxxxxx. */
  predicate IsCont(b: Byte) { 0x80 <= b <= 0xBF }

  predicate IsAscii(b: Byte) { b < 0x80 }

  /** Bounds on the second byte of a three-byte sequence, by lead byte. */
  function Lo3(lead: Byte): Byte { if lead == 0xE0 then 0xA0 else 0x80 }
  function Hi3(lead: Byte): Byte { if lead == 0xED then 0x9F else 0xBF }

  /** Bounds on the second byte of a four-byte sequence, by lead byte. */
  function Lo4(lead: Byte): Byte { if lead == 0xF0 then 0x90 else 0x80 }
  function Hi4(lead: Byte): Byte { if lead == 0xF4 then 0x8F else 0xBF }

  /** Length of the well-formed code-unit sequence at the front of `b`,
      or 0 when `b` is empty or does not start with one. */
  function LeadWidth(b: seq<Byte>): (w: nat)
    ensures w <= 4 && w <= |b|
    ensures w > 0 ==> !IsCont(b[0])
    ensures w > 1 ==> forall j :: 1 <= j < w ==> IsCont(b[j])
    ensures w == 1 <==> |b| > 0 && IsAscii(b[0])
  {
    if |b| == 0 then 0
    else if IsAscii(b[0]) then 1
    else if 0xC2 <= b[0] <= 0xDF then
      if |b| >= 2 && IsCont(b[1]) then 2 else 0
    else if 0xE0 <= b[0] <= 0xEF then
      if |b| >= 3 && Lo3(b[0]) <= b[1] <= Hi3(b[0]) && IsCont(b[2]) then 3 else 0
    else if 0xF0 <= b[0] <= 0xF4 then
      if |b| >= 4 && Lo4(b[0]) <= b[1] <= Hi4(b[0]) && IsCont(b[2]) && IsCont(b[3]) then 4 else 0
    else 0
  }

  /** `b` is a concatenation of well-formed code-unit sequences. */
  predicate Valid(b: seq<Byte>)
    decreases |b|
  {
    |b| == 0 || (LeadWidth(b) > 0 && Valid(b[LeadWidth(b)..]))
  }

  /** The scalar value carried by a well-formed sequence of width `w`. */
  function CodePoint(b: seq<Byte>, w: nat): int
    requires 1 <= w <= 4 && w <= |b|
  {
    if w == 1 then b[0] as int
    else if w == 2 then (b[0] as int - 0xC0) * 64 + (b[1] as int - 0x80)
    else if w == 3 then
      (b[0] as int - 0xE0) * 4096 + (b[1] as int - 0x80) * 64 + (b[2] as int - 0x80)
    else
      (b[0] as int - 0xF0) * 262144 + (b[1] as int - 0x80) * 4096
        + (b[2] as int - 0x80) * 64 + (b[3] as int - 0x80)
  }

  predicate IsScalar(cp: int) { 0 <= cp < 0xD800 || 0xE000 <= cp < 0x110000 }

  /** UTF-8 encoding of one character. */
  function EncodeChar(c: char): (r: seq<Byte>)
    ensures 1 <= |r| <= 4 && LeadWidth(r) == |r|
    ensures CodePoint(r, |r|) == c as int
  {
    var cp := c as int;
    if cp < 0x80 then [cp as Byte]
    else if cp < 0x800 then Encode2(cp)
    else if cp < 0x10000 then Encode3(cp)
    else Encode4(cp)
  }

  function Encode2(cp: int): (r: seq<Byte>)
    requires 0x80 <= cp < 0x800
    ensures |r| == 2 && LeadWidth(r) == 2 && CodePoint(r, 2) == cp
  {
    var q1 := cp / 64;
    [(0xC0 + q1) as Byte, (0x80 + cp % 64) as Byte]
  }

  function Encode3(cp: int): (r: seq<Byte>)
    requires 0x800 <= cp < 0x10000 && IsScalar(cp)
    ensures |r| == 3 && LeadWidth(r) == 3 && CodePoint(r, 3) == cp
  {
    var q1 := cp / 64;
    var q2 := q1 / 64;
    [(0xE0 + q2) as Byte, (0x80 + q1 % 64) as Byte, (0x80 + cp % 64) as Byte]
  }

  function Encode4(cp: int): (r: seq<Byte>)
    requires 0x10000 <= cp < 0x110000
    ensures |r| == 4 && LeadWidth(r) == 4 && CodePoint(r, 4) == cp
  {
    var q1 := cp / 64;
    var q2 := q1 / 64;
    var q3 := q2 / 64;
    [(0xF0 + q3) as Byte, (0x80 + q2 % 64) as Byte,
     (0x80 + q1 % 64) as Byte, (0x80 + cp % 64) as Byte]
  }

  /** UTF-8 encoding of a string, as str.encode('utf-8'). */
  function Encode(s: string): seq<Byte>
  {
    if |s| == 0 then [] else EncodeChar(s[0]) + Encode(s[1..])
  }

  /** The width of a well-formed sequence is fixed by the range of its scalar value. */
  lemma CodePointRange(b: seq<Byte>)
    requires LeadWidth(b) > 0
    ensures var w := LeadWidth(b); var cp := CodePoint(b, w);
      IsScalar(cp)
      && (w == 1 <==> cp < 0x80)
      && (w == 2 <==> 0x80 <= cp < 0x800)
      && (w == 3 <==> 0x800 <= cp < 0x10000)
      && (w == 4 <==> 0x10000 <= cp)
  {
  }

  /** Two well-formed sequences of one width that carry the same scalar are equal. */
  lemma CodePointInjective(x: seq<Byte>, y: seq<Byte>, w: nat)
    requires 1 <= w <= 4 && |x| == w && |y| == w
    requires LeadWidth(x) == w && LeadWidth(y) == w
    requires CodePoint(x, w) == CodePoint(y, w)
    ensures x == y
  {
  }

  /** Decodes the well-formed sequence at the front of `b`. */
  function DecodeFirst(b: seq<Byte>): (c: char)
    requires LeadWidth(b) > 0
    ensures EncodeChar(c) == b[..LeadWidth(b)]
  {
    var w := LeadWidth(b);
    CodePointRange(b);
    var cp := CodePoint(b, w);
    var c := cp as char;
    var e := EncodeChar(c);
    CodePointRange(e);
    assert LeadWidth(b[..w]) == w;
    CodePointInjective(e, b[..w], w);
    c
  }

  /** Decoding as bytes.decode('utf-8'): None where Python raises. */
  function Decode(b: seq<Byte>): (r: Option<string>)
    ensures r.Some? <==> Valid(b)
    ensures r.Some? ==> Encode(r.value) == b
    decreases |b|
  {
    if |b| == 0 then Some([])
    else
      var w := LeadWidth(b);
      if w == 0 then None
      else
        match Decode(b[w..])
        case None => None
        case Some(rest) =>
          assert b == b[..w] + b[w..];
          Some([DecodeFirst(b)] + rest)
  }

  /** The first character's width only depends on its own bytes. */
  lemma LeadWidthPrefix(x: seq<Byte>, y: seq<Byte>)
    requires LeadWidth(x) > 0
    ensures LeadWidth(x + y) == LeadWidth(x)
  {
    assert forall j :: 0 <= j < |x| ==> (x + y)[j] == x[j];
  }

  /** Putting a well-formed first character in front of a valid string. */
  lemma ConcatStep(x: seq<Byte>, y: seq<Byte>, w: nat)
    requires 0 < w && LeadWidth(x) == w && Valid(x[w..] + y)
    ensures Valid(x + y)
  {
    LeadWidthPrefix(x, y);
    assert (x + y)[w..] == x[w..] + y;
  }

  /** Concatenating two valid byte strings gives a valid one. */
  lemma {:induction false} ValidConcat(x: seq<Byte>, y: seq<Byte>)
    requires Valid(x) && Valid(y)
    ensures Valid(x + y)
    decreases |x|
  {
    if |x| == 0 {
      assert x + y == y;
    } else {
      var w := LeadWidth(x);
      ValidConcat(x[w..], y);
      ConcatStep(x, y, w);
    }
  }

  lemma {:induction false} EncodeAppend(a: string, b: string)
    ensures Encode(a + b) == Encode(a) + Encode(b)
    decreases |a|
  {
    if |a| == 0 {
      assert a + b == b;
    } else {
      assert (a + b)[1..] == a[1..] + b;
      EncodeAppend(a[1..], b);
    }
  }

  /** Distinct characters have distinct encodings. */
  lemma EncodeCharInjective(c: char, d: char)
    requires EncodeChar(c) == EncodeChar(d)
    ensures c == d
  {
    assert c as int == CodePoint(EncodeChar(c), |EncodeChar(c)|);
  }

  /** Decoding reads one character's encoding off the front and goes on with the rest. */
  lemma DecodeCons(c: char, rest: seq<Byte>)
    ensures Decode(EncodeChar(c) + rest) ==
      if Decode(rest).Some? then Some([c] + Decode(rest).value) else None
  {
    var e := EncodeChar(c);
    var b := e + rest;
    LeadWidthPrefix(e, rest);
    assert b[|e|..] == rest;
    assert b[..|e|] == e;
    EncodeCharInjective(DecodeFirst(b), c);
  }

  /** Decoding undoes encoding: bytes.decode(str.encode(s)) == s. */
  lemma {:induction false} DecodeEncode(s: string)
    ensures Decode(Encode(s)) == Some(s)
    decreases |s|
  {
    if |s| > 0 {
      DecodeCons(s[0], Encode(s[1..]));
      DecodeEncode(s[1..]);
      assert s == [s[0]] + s[1..];
    }
  }

  /** Distinct strings have distinct encodings. */
  lemma EncodeInjective(a: string, b: string)
    requires Encode(a) == Encode(b)
    ensures a == b
  {
    DecodeEncode(a);
    DecodeEncode(b);
  }

  /** Every encoding is well-formed. */
  lemma EncodeValid(s: string)
    ensures Valid(Encode(s))
  {
    DecodeEncode(s);
  }

  /** A zero byte appears in an encoding only where the string has U+0000. */
  lemma {:induction false} EncodeNoZero(s: string)
    requires forall i :: 0 <= i < |s| ==> s[i] != 0 as char
    ensures forall j :: 0 <= j < |Encode(s)| ==> Encode(s)[j] != 0
    decreases |s|
  {
    if |s| > 0 {
      EncodeNoZero(s[1..]);
      var e := EncodeChar(s[0]);
      assert forall j :: 0 <= j < |e| ==> e[j] != 0 by {
        if |e| == 1 { assert e[0] as int == s[0] as int; }
      }
    }
  }

  /** ASCII text encodes one byte per character, each byte its code. */
  lemma {:induction false} EncodeAscii(s: string)
    requires forall i :: 0 <= i < |s| ==> s[i] as int < 0x80
    ensures |Encode(s)| == |s|
    ensures forall i :: 0 <= i < |s| ==> Encode(s)[i] as int == s[i] as int
    decreases |s|
  {
    if |s| > 0 {
      EncodeAscii(s[1..]);
      assert Encode(s) == [s[0] as int as Byte] + Encode(s[1..]);
    }
  }

  /** A string of ASCII bytes is well-formed. */
  lemma {:induction false} AllAsciiValid(x: seq<Byte>)
    requires forall j :: 0 <= j < |x| ==> IsAscii(x[j])
    ensures Valid(x)
    decreases |x|
  {
    if |x| > 0 {
      AllAsciiValid(x[1..]);
    }
  }

  /** `u` agrees with `t` except at bytes replaced by ASCII, and it changes either
      every byte of a character of `t` or none of them. */
  predicate WholeCharRewrite(t: seq<Byte>, u: seq<Byte>)
  {
    && |t| == |u|
    && (forall p :: 0 <= p < |t| ==> u[p] == t[p] || IsAscii(u[p]))
    && (forall p :: 0 < p < |t| && IsCont(t[p]) ==> (u[p] == t[p] <==> u[p-1] == t[p-1]))
  }

  /** A whole-character rewrite of t is one of every suffix of t too. */
  lemma WholeCharRewriteSuffix(t: seq<Byte>, u: seq<Byte>, w: int)
    requires WholeCharRewrite(t, u) && 0 <= w <= |t|
    ensures WholeCharRewrite(t[w..], u[w..])
  {
    forall p | 0 < p < |t| - w && IsCont(t[w..][p])
      ensures u[w..][p] == t[w..][p] <==> u[w..][p-1] == t[w..][p-1]
    {
      assert t[w..][p] == t[w + p] && u[w..][p-1] == u[w + p - 1];
    }
  }

  /** The rewrite of the first character of t is well-formed: it is either that
      character or all ASCII. */
  lemma WholeCharRewriteFirst(t: seq<Byte>, u: seq<Byte>)
    requires |t| > 0 && LeadWidth(t) > 0 && WholeCharRewrite(t, u)
    ensures Valid(u[..LeadWidth(t)])
  {
    var w := LeadWidth(t);
    if u[0] == t[0] {
      assert forall j :: 0 <= j < w ==> u[j] == t[j] by {
        if w > 1 { assert u[1] == t[1]; }
        if w > 2 { assert u[2] == t[2]; }
        if w > 3 { assert u[3] == t[3]; }
      }
      assert u[..w] == t[..w];
      LeadWidthPrefix(t[..w], t[w..]);
      assert t[..w] + t[w..] == t;
      assert Valid(u[..w]) by { assert u[..w][w..] == []; }
    } else {
      assert forall j :: 0 <= j < w ==> u[j] != t[j] by {
        if w > 1 { assert u[1] != t[1]; }
        if w > 2 { assert u[2] != t[2]; }
        if w > 3 { assert u[3] != t[3]; }
      }
      AllAsciiValid(u[..w]);
    }
  }

  /** Rewriting whole characters with ASCII bytes keeps a string well-formed. */
  lemma {:induction false} WholeCharRewriteValid(t: seq<Byte>, u: seq<Byte>)
    requires Valid(t) && WholeCharRewrite(t, u)
    ensures Valid(u)
    decreases |t|
  {
    if |t| > 0 {
      var w := LeadWidth(t);
      WholeCharRewriteSuffix(t, u, w);
      WholeCharRewriteValid(t[w..], u[w..]);
      WholeCharRewriteFirst(t, u);
      ValidConcat(u[..w], u[w..]);
      assert u[..w] + u[w..] == u;
    }
  }

  /** In a well-formed string a continuation byte never follows an ASCII byte. */
  lemma {:induction false} ContFollowsNonAscii(t: seq<Byte>, p: int)
    requires Valid(t) && 0 < p < |t| && IsCont(t[p])
    ensures !IsAscii(t[p - 1])
    decreases |t|
  {
    var w := LeadWidth(t);
    if p > w {
      ContFollowsNonAscii(t[w..], p - w);
    }
  }
}
